=== FILE: README.md ===
# English Adjuster — quiz attempts, pretest analysis and history paging in Dafny

English Adjuster is a small English-learning web application. A learner signs
up, takes a pretest, and is told which of four skills (grammar, vocabulary,
reading, writing) are weak. After that the learner takes quizzes whose
attempts are stored per user. A history page lists the attempts with filters
and pagination, and a summary shows totals, the last seven days and
per-topic averages.

This project models the pure logic of that system over in-memory sequences
and proves properties about it:

- **`QuizAttempt`** (`quiz_attempt.dfy`): the attempt document and its
  embedded items. This covers the `quizType` and item `difficulty`
  enumerations with their defaults, and the `percent` value derived on read.
- **`AttemptStore`** (`attempt_store.dfy`): the attempts collection, and the
  create, owner-scoped lookup and filtered, paginated list handlers.
- **`AttemptSummary`** (`attempt_summary.dfy`): the statistics handler. It
  computes the total count, the seven-day count, and the group-by-topic with
  counts and rounded mean percentages, sorted by count.
- **`Users`** (`users.dfy`): the user document. It covers signup with its
  missing-field and duplicate-email rules, saving pretest scores, and the
  threshold classifier that lists weak skills.
- **`History`** (`history.js` logic, `history.dfy`): duration formatting,
  the Prev/Next/Apply paging state machine, and the query string the page
  sends. It also covers the button-disable rule and the top-topic card.
- **`ItemExtraction`** (`item_extraction.dfy`): turning a quiz form's radio
  buttons into numbered attempt items with a correctness flag.
- **Supporting modules**:
  - `Responses`: options, JSON scalars, and results and errors.
  - `Seqs`: filter, first match, and a descending insertion sort.
  - `Decimal`: decimal rendering and parsing of naturals.

Conventions:

- **Collections and ids.** Each collection is a sequence in insertion order,
  and a document's id is its position.
- **Results.** A handler's answer is a `Result` that is either `Ok` or
  `Err`.
  - `BadRequest` stands for a 400 response, `NotFound` for a 404, and
    `ServerError` for a 500 (a thrown exception).
  - An `Err` carries no new collection, so a refused request leaves the
    store as it was.
- **Percentages.** They are computed on exact rationals. `Math.round` is
  rounding half up.
- **External inputs.**
  - The caller's user id comes from the authentication middleware and is a
    parameter.
  - The current time (`Date.now()`) is a parameter.
  - The bcrypt hash of a password is a parameter.

## Model

| member | source | states |
|---|---|---|
| QuizAttempt.ParseDifficulty | backend/models/QuizAttempt.js:12 | a difficulty is accepted exactly when it is "easy", "medium" or "hard", and then means the level of that name |
| QuizAttempt.DifficultyNameRoundTrip | backend/models/QuizAttempt.js:12 | every level's stored name is accepted back as that level |
| QuizAttempt.ParseQuizType | backend/models/QuizAttempt.js:23 | a quiz type is accepted exactly when it is "topic" or "random" |
| QuizAttempt.QuizTypeNameRoundTrip | backend/models/QuizAttempt.js:23 | every quiz type's stored name is accepted back as that type |
| QuizAttempt.ItemFromInput | backend/models/QuizAttempt.js:4-16 | an item casts iff its difficulty is absent or one of the three names; an absent difficulty becomes "medium"; every other field is kept |
| QuizAttempt.ItemsFromInput | backend/models/QuizAttempt.js:29 | an items array casts iff every element does, and then keeps length, order and each element's cast |
| QuizAttempt.RoundHalfUp | backend/models/QuizAttempt.js:36 | `Math.round` lands within half of its argument, halves going up |
| QuizAttempt.RoundHalfUpUnique | backend/models/QuizAttempt.js:36 | no other integer lies in that half-open window, so the rounding is determined |
| QuizAttempt.Percent | backend/models/QuizAttempt.js:35-37 | percent is 0 unless total is positive; otherwise 100·score/total lies within half of it, stated without division |
| QuizAttempt.PercentUnique | backend/models/QuizAttempt.js:35-37 | any integer within half a percent of the exact ratio is the percent |
| QuizAttempt.PercentRange | backend/models/QuizAttempt.js:36 | a score between 0 and a positive total gives a percent between 0 and 100 |
| AttemptStore.Create | backend/routes/attempts.js:7-29 | a non-numeric score or total is a 400 and an enum violation a 500, both writing nothing. Otherwise exactly one attempt is appended, under a fresh id, owned by the caller and completed now whatever the body says. It takes the defaults "random", "topic", 0 and [] for omitted fields, and keeps the store's ids valid |
| AttemptStore.GetById | backend/routes/attempts.js:52-60 | the lookup succeeds iff some attempt has that id and the caller as owner, and returns such an attempt; otherwise it is NotFound |
| AttemptStore.GetByIdExact | backend/routes/attempts.js:54-55 | on a valid store, another user's attempt and a missing id are both NotFound, and an owned id yields exactly that attempt |
| AttemptStore.CreateThenGet | backend/routes/attempts.js:14-24 | a created attempt is readable by its creator under its new id and NotFound for anyone else |
| AttemptStore.FindOwned | backend/routes/attempts.js:54 | `findOne` finds nothing iff no stored attempt has both that id and the caller as owner, and otherwise returns a stored attempt with both |
| AttemptStore.Constraint | backend/routes/attempts.js:36-37 | a filter value constrains iff it is present, non-empty and not "all", and then constrains to itself. That "all" means no filter is proved as a property of the list in `AttemptStore.AllMeansUnfiltered` |
| AttemptStore.Normalize | backend/routes/attempts.js:35-37 | the query filter is always scoped to the caller. Topic and quiz type constrain exactly when they are present, non-empty and not "all", and then to the query's own value |
| AttemptStore.Matching | backend/routes/attempts.js:41-42 | the matched attempts are exactly the store's attempts that satisfy the filter |
| Seqs.FilterCounts | backend/routes/attempts.js:41-42 | a query keeps each matching record exactly as often as it occurs in the collection and nothing else |
| AttemptStore.NewestFirst | backend/routes/attempts.js:34 | the default sort is a permutation of the records (same multiset) ordered by `completedAt` descending |
| AttemptStore.Take | backend/routes/attempts.js:41 | `.limit(n)` passes min(\|n\|, available) records, and everything when n is 0. Its effect on whole pages is proved in `AttemptStore.PageNonEmpty` and `AttemptStore.PagesTile` |
| AttemptStore.Window | backend/routes/attempts.js:39-41 | skip-then-limit yields the records at positions skip, skip+1, … of the ordered result, as many as `Take` allows |
| AttemptStore.Paginate | backend/routes/attempts.js:39-45 | a negative skip (page−1)·limit is refused by the store; otherwise the answer is the skip-and-limit window of the newest-first matches, with total the number of all matches and page and limit echoed. The paging properties are proved in `AttemptStore.PagesTile`, `AttemptStore.PageNonEmpty` and `AttemptStore.NextPageNonEmpty` |
| AttemptStore.List | backend/routes/attempts.js:32-49 | a negative skip is a 500. Otherwise it echoes page and limit, and total counts every matching record regardless of page. It returns as many items as `Take` lets through of the total − (page−1)·limit that remain: min(limit, max(0, total − (page−1)·limit)) for a positive limit, all remaining for a limit of 0, and at most \|limit\| for a negative one. The items are all the caller's, all matching, newest first |
| AttemptStore.PagesTile | backend/routes/attempts.js:39-41 | row j of page p is the newest-first matching attempt at position (p−1)·limit + j whenever that position exists, so consecutive pages tile the result |
| AttemptStore.PageNonEmpty | backend/routes/attempts.js:39-45 | with positive page and limit the list answers, and the page has items iff (page−1)·limit < total |
| AttemptStore.NextPageNonEmpty | backend/routes/attempts.js:39-45 | page p+1 has items iff more than p·limit attempts match in all |
| AttemptStore.ListTotalIgnoresPage | backend/routes/attempts.js:42 | the total is the same whatever page is asked for |
| AttemptStore.AllMeansUnfiltered | backend/routes/attempts.js:36-37 | `topic=all` / `quizType=all` give the same answer as leaving them out |
| AttemptStore.ListIgnoresOtherOwners | backend/routes/attempts.js:35 | attempts of other users never change a caller's list |
| AttemptSummary.Group | backend/routes/attempts.js:76 | a topic's group holds exactly the attempts of that topic |
| AttemptSummary.Topics | backend/routes/attempts.js:76 | the group keys are distinct and are exactly the topics that occur |
| AttemptSummary.Stat | backend/routes/attempts.js:76-84 | a topic's entry counts its attempts (at least one), and its average is within half of the exact mean of score/total·100 |
| AttemptSummary.ByTopic | backend/routes/attempts.js:74-78 | entries are sorted by attempt count descending, one per occurring topic and none other, each the statistics of its topic |
| AttemptSummary.Summarize | backend/routes/attempts.js:63-89 | it fails iff one of the caller's attempts has total 0 (the division throws). Otherwise totalAttempts counts the caller's attempts, attemptsLast7Days counts those completed at or after now − 7 days (never more than the total), and byTopic groups the caller's attempts |
| AttemptSummary.ByTopicSumsToTotal | backend/routes/attempts.js:82-84 | the per-topic counts add up to totalAttempts |
| AttemptSummary.SummaryTotalIsListTotal | backend/routes/attempts.js:68 | totalAttempts equals the total of the unfiltered list |
| AttemptSummary.OwnedSnoc | backend/routes/attempts.js:68 | appending an attempt extends exactly its owner's attempts |
| AttemptSummary.AppendCountsOnce | backend/routes/attempts.js:68-73 | a new attempt completed now adds one to its owner's total and seven-day count |
| AttemptSummary.AppendIgnoredByOthers | backend/routes/attempts.js:65-78 | a new attempt leaves every other user's summary unchanged |
| AttemptSummary.CreateCountsOnce | backend/routes/attempts.js:14-24 | creating an attempt adds one to the creator's total and seven-day count and changes no one else's summary |
| AttemptSummary.NoRecentAttempts | backend/routes/attempts.js:69-73 | with no attempt in the window the seven-day count is 0 |
| AttemptSummary.OneTopicPair | backend/routes/attempts.js:76-84 | two attempts on one topic give one entry counting 2, averaging the two exact percentages |
| AttemptSummary.IdiomsAverage | backend/routes/attempts.js:76-84 | 8/10 and 4/10 on "Idioms" give the entry ("Idioms", 2, 60) |
| AttemptSummary.SeventyAverage | backend/routes/attempts.js:76-84 | 5/10 and 9/10 on one topic average to 70 |
| Users.Save | backend/models/User.js:3-14 | saving succeeds iff email and password are non-empty and the email is new; the user is appended with all pretest scores 0, and the user invariants are kept |
| Users.Signup | backend/server.js:40-65 | a missing email or password is a 400, and so is a registered email; otherwise one user is appended with the hashed password. The uniqueness and required-field invariants are kept |
| Users.FreshUserDefaults | backend/models/User.js:6-13 | a new user's grammar, vocab, reading, writing and total are 0 and the weakness list is empty |
| Users.SecondSignupRefused | backend/server.js:49-50 | signing up again with the same email is refused as taken |
| Users.SavePretest | backend/server.js:102-135 | any non-numeric score is a 400. Otherwise it sets the four scores and total as their sum, keeps email, password and stored weaknesses, changes no other user, and keeps the invariants. A vanished user is a 500 |
| Users.Weaknesses | backend/server.js:147-162 | a skill's weakness is reported iff its score is under its threshold (11, 9, 9, 8), with at most four entries |
| Users.WeaknessesFollowTable | backend/server.js:149-160 | the report is the fixed skill order Grammar, Vocabulary, Reading, Writing filtered by the threshold test |
| Users.Analyze | backend/server.js:137-167 | it is NotFound iff the user or their pretest scores are absent, and otherwise the weaknesses of the stored scores. The link to a save is proved in `Users.SaveThenAnalyze` |
| Users.SaveThenAnalyze | backend/server.js:114-160 | after saving scores, the analysis reports a skill iff its new score is under its threshold |
| Decimal.Show | js/history.js:29 | the decimal rendering is a non-empty digit string without leading zero, one digit exactly below 10 |
| Decimal.ParseShow | js/history.js:45-46 | parsing a number's decimal rendering gives the number back |
| Decimal.ShowParse | js/history.js:29 | every canonical numeral (digits, no leading zero) is the rendering of the number it denotes |
| History.FmtDur | js/history.js:25-30 | the duration is "-" iff it is missing or not positive |
| History.FmtDurRoundTrip | js/history.js:27-29 | a positive duration is shown as "{m}m {r}s", with m and r in plain decimal, m·60 + r = s and r < 60 |
| History.ParseDurOnlyShown | js/history.js:27-29 | a string that reads as a duration is exactly the "{m}m {r}s" rendering of its two numbers, so the reading is the exact inverse of the format |
| History.Step | js/history.js:72-86 | Apply sets the filters and returns to page 1. Prev leaves the state unchanged iff it is disabled, and otherwise goes back one page. Next goes forward one page. The limit never changes and the page stays positive |
| History.RunStaysValid | js/history.js:79-86 | after any sequence of clicks the page is at least 1 and the limit unchanged |
| History.ReachableStatesValid | js/history.js:13 | from the initial state every reachable state has page ≥ 1 and limit 10 |
| History.Lookup | js/history.js:44-48 | a parameter is found iff it was set, with the value it was set to |
| History.QueryParams | js/history.js:44-48 | page and limit are always the first two parameters, written in decimal. A topic or quiz type parameter is added iff the selection is not "all", and nothing else is added |
| History.RequestReflectsState | js/history.js:44-48 | the request carries the page and limit, and a topic or quiz type exactly when the selection is not "all" |
| History.RequestShape | js/history.js:44-48 | the query the list handler reads back is the state's page and limit with topic and quiz type unset for "all" |
| History.NextEnabledIffMore | js/history.js:69 | Next is enabled iff the following page of the list has at least one attempt |
| History.TopTopic | js/history.js:37 | the card shows "-" when there are no topics or the first topic is empty, and otherwise the first topic. What that topic means is proved in `History.TopTopicIsMostAttempted` |
| History.TopTopicIsMostAttempted | js/history.js:37 | unless the card shows "-", the topic it shows is one the caller attempted at least as often as any other; the same holds for byTopic[0] |
| ItemExtraction.QuestionBlocks | public/js/attempts-client.js:46-49 | the question blocks are the cards, or the whole form as one block when there are none. The resulting items are stated in `ItemExtraction.NoCardsOneQuestion` |
| ItemExtraction.GroupOf | public/js/attempts-client.js:62-63 | a radio group is exactly the form's radios of that name |
| ItemExtraction.Choices | public/js/attempts-client.js:64-68 | each choice is the label text of the corresponding radio, or its value outside a label |
| ItemExtraction.ItemFor | public/js/attempts-client.js:58-59 | a block gives an item iff it has a radio |
| ItemExtraction.ItemContents | public/js/attempts-client.js:54-83 | a block's item has the next number and the heading or "Q"+number. Its choices are the group's texts; the user's answer is present iff a radio of the group is checked; the correct answer is present iff a radio of the group has value "true"; and isCorrect grades the two |
| ItemExtraction.ItemsFrom | public/js/attempts-client.js:51-84 | one item per block that has radios |
| ItemExtraction.ItemsFromBlocks | public/js/attempts-client.js:51-84 | the i-th item is the item of the i-th block with radios, numbered consecutively |
| ItemExtraction.BuildItems | public/js/attempts-client.js:45-87 | one item per question block that has radios, in block order; the i-th is that block's item with question number i + 1, and there are never more items than blocks |
| ItemExtraction.ItemsNumberedConsecutively | public/js/attempts-client.js:51-77 | question ids are "1", "2", … with no gaps, skipped blocks not counting |
| ItemExtraction.NoCardsOneQuestion | public/js/attempts-client.js:49 | a form without cards gives one item if it has a radio, none otherwise |
| ItemExtraction.ChoosingCorrectScores | public/js/attempts-client.js:70-82 | checking the radio marked correct grades the question correct, whatever its label |
| ItemExtraction.UnansweredIsWrong | public/js/attempts-client.js:62-82 | a question none of whose group's radios is checked (other questions may be answered) has a null user answer and is graded wrong |
| ItemExtraction.BuiltItemsAreSaved | public/js/attempts-client.js:76-83 | built items always pass the item schema, each with difficulty "medium", its number and a correctness flag |

## Left out

- HTTP plumbing is not modelled: Express routing, status codes, CORS, static
  files and `app.listen`. Responses are the `Result` datatype.
- Store failures are not modelled. The stores are in-memory sequences and
  never fail, so the 500 answer that each handler's `catch` gives for a
  database error cannot occur. Those catches are at
  backend/routes/attempts.js:26-28, 46-48, 57-59 and 86-88, and at
  backend/server.js:61-64, 132-134 and 163-166. The 500s the model does
  produce come from a schema rejection, a divide by zero, a negative skip
  and a vanished user.
- Authentication is outside the model: the middleware, JWT signing, and the
  token returned by signup. The caller's id is a parameter.
- Password hashing is outside the model. bcrypt's hash is a parameter of
  `Users.Signup`.
- `/api/signin` is not modelled, because password checking is a bcrypt
  comparison.
- `/api/profile` is not modelled, because it is a plain read.
- The OpenAI `/generate-quiz` endpoint is left out, as a third-party call.
- Client-supplied `sort` strings are not modelled; only the default
  `-completedAt` is.
- The order of sort ties is not specified: attempts completed at the same
  instant, and topics with equal counts. The store promises no order for
  them, so the contracts promise none either.
- ObjectId casting is not modelled. The `aggregate` stages match on the
  owner without casting; the model gives them the owner-scoped meaning of
  `countDocuments`.
- Ids are positions, not Mongo ObjectIds, so a malformed id string (a cast
  error, i.e. a 500) cannot be expressed.
- Numbers are integers. Floating-point scores and JS floating-point rounding
  are not modelled. Percentages are exact rationals, which gives the
  intended half-up rounding.
- Non-numeric `page` and `limit` query strings are not modelled, because
  `Number(..)` would give NaN. The list takes them as integers.
- The `timestamps` option's `createdAt` and `updatedAt` are not modelled.
- `Promise.all` is not modelled: its sub-queries are independent reads,
  evaluated one after the other here.
- Browser-side code is not modelled: the DOM, `fetch`, `localStorage`,
  `saveAttempt`, table and modal rendering, and `fmtDate`.
- The question-text prefix regex is not modelled. A card's heading is taken
  as already stripped of "Question N:".
- The `signin.js` and `signup.js` front-ends are not modelled; they are UI
  and network glue.
- The `QuizResult` and `GeneratedQuiz` schemas are not modelled, because no
  handler here uses them.
- AttemptStore.Create: a body field of the wrong JSON type (other than score
  and total) is taken to be of the right type. Mongoose would cast or reject
  it.
- Users.Signup: email and password are strings in the model. In the source,
  a non-string value takes paths the model cannot express. A numeric
  password passes the `!password` check (backend/server.js:44), and then
  `bcrypt.hash` throws, giving a 500 (backend/server.js:52, 61-64). An
  object email such as `{"$gt": ""}` reaches `User.findOne({ email })`
  (backend/server.js:49) as a query operator.
- AttemptStore.List: topic and quizType are strings in the model. Under
  Express's extended query parser, `topic[$ne]=x` or `quizType[$ne]=x`
  arrives as an object. It is truthy and not "all", so it reaches the Mongo
  filter as a query operator (backend/routes/attempts.js:36-37), which the
  string-equality `Matches` does not express.
- AttemptStore.Create: a JSON `null` in topic, quizType, durationSec,
  startedAt or items is treated like an absent key, so it gets the default.
  In the source, destructuring defaults (backend/routes/attempts.js:9) and
  schema defaults apply only to `undefined`. A `null` topic, quiz type or
  duration is therefore stored as `null` there, not as "random", "topic" or
  0. A nullable stored field would change every attempt field the list and
  summary read, so the model does not carry one.
- Users.Signup: a failed save after the duplicate check (a concurrent
  signup with the same email) cannot occur in the sequential model.
- History.FmtDur: only integer durations are modelled.

=== FILE: attempt_store.dfy ===
/** The attempts collection and the three request handlers of
    backend/routes/attempts.js that read or write single attempts: create,
    owner-scoped lookup by id, and the filtered, paginated list. The
    collection is a sequence in insertion order; an attempt's id is its
    position. */
module AttemptStore {
  import opened Responses
  import opened Seqs
  import opened QuizAttempt

  type Store = seq<Attempt>

  /** Ids are positions, hence unique and never reused. */
  ghost predicate Valid(store: Store) {
    forall i :: 0 <= i < |store| ==> store[i].id == i
  }

  // ---------------------------------------------------------------- create

  /** The JSON body of `POST /api/attempts`; an absent key is `None`. */
  datatype CreateBody = CreateBody(
    topic: Option<string>,
    quizType: Option<string>,
    score: Option<Json>,
    total: Option<Json>,
    durationSec: Option<int>,
    startedAt: Option<Millis>,
    items: Option<seq<ItemInput>>)

  datatype Created = Created(store: Store, attempt: Attempt)

  /** `startedAt ? new Date(startedAt) : undefined`: 0 is falsy. */
  function StartTime(t: Option<Millis>): Option<Millis> {
    if t.Some? && t.value != 0 then t else None
  }

  /** Create an attempt owned by `owner` at time `now`. Non-numeric score or
      total is a 400 and nothing is written; a schema enum violation makes
      the insert throw (a 500). Otherwise exactly one attempt is appended,
      owned by the caller and completed now whatever the body says, with the
      schema defaults for omitted fields. */
  function Create(store: Store, owner: UserId, body: CreateBody, now: Millis): (r: Result<Created>)
    ensures (!IsNumber(body.score) || !IsNumber(body.total)) <==> r == Err(BadRequest(ScoreAndTotalRequired))
    ensures r.Ok? <==> && IsNumber(body.score) && IsNumber(body.total)
                       && ParseQuizType(Defaulted(body.quizType, "topic")).Some?
                       && ItemsFromInput(Defaulted(body.items, [])).Some?
    ensures r.Err? && r.error != BadRequest(ScoreAndTotalRequired) ==> r.error == ServerError(EnumViolation)
    ensures r.Ok? ==> r.value.store == store + [r.value.attempt]
    ensures r.Ok? ==> var a := r.value.attempt;
                      && a.id == |store|
                      && a.userId == owner
                      && a.completedAt == now
                      && a.score == body.score.value.n
                      && a.total == body.total.value.n
                      && (body.topic.None? ==> a.topic == DefaultTopic)
                      && (body.topic.Some? ==> a.topic == body.topic.value)
                      && (body.quizType.None? ==> a.quizType == DefaultQuizType)
                      && (body.quizType.Some? ==> QuizTypeName(a.quizType) == body.quizType.value)
                      && (body.durationSec.None? ==> a.durationSec == DefaultDuration)
                      && (body.durationSec.Some? ==> a.durationSec == body.durationSec.value)
                      && (a.startedAt.Some? <==> body.startedAt.Some? && body.startedAt.value != 0)
                      && (a.startedAt.Some? ==> a.startedAt == body.startedAt)
                      && (body.items.None? ==> a.items == [])
                      && (body.items.Some? ==> ItemsFromInput(body.items.value) == Some(a.items))
    ensures r.Ok? && Valid(store) ==> Valid(r.value.store)
  {
    if !IsNumber(body.score) || !IsNumber(body.total) then
      Err(BadRequest(ScoreAndTotalRequired))
    else
      var quizType := ParseQuizType(Defaulted(body.quizType, QuizTypeName(DefaultQuizType)));
      var items := ItemsFromInput(Defaulted(body.items, []));
      if quizType.None? || items.None? then
        Err(ServerError(EnumViolation))
      else
        var a := Attempt(
          |store|, owner, Defaulted(body.topic, DefaultTopic), quizType.value,
          body.score.value.n, body.total.value.n, Defaulted(body.durationSec, DefaultDuration),
          StartTime(body.startedAt), now, items.value);
        Ok(Created(store + [a], a))
  }

  // ---------------------------------------------------------------- lookup

  /** `findOne({ _id: id, userId: owner })`, first match in store order. */
  function FindOwned(store: Store, owner: UserId, id: AttemptId): (r: Option<Attempt>)
    ensures r.None? <==> forall i :: 0 <= i < |store| ==> store[i].id != id || store[i].userId != owner
    ensures r.Some? ==> r.value in store && r.value.id == id && r.value.userId == owner
  {
    if |store| == 0 then None
    else if store[0].id == id && store[0].userId == owner then Some(store[0])
    else
      var r := FindOwned(store[1..], owner, id);
      assert forall i :: 1 <= i < |store| ==> store[i] == store[1..][i - 1];
      r
  }

  /** `GET /api/attempts/:id`: the caller's attempt with that id, or 404. An
      attempt of another user and a missing id give the same answer. */
  function GetById(store: Store, owner: UserId, id: AttemptId): (r: Result<Attempt>)
    ensures r.Ok? <==> exists i :: 0 <= i < |store| && store[i].id == id && store[i].userId == owner
    ensures r.Ok? ==> r.value in store && r.value.id == id && r.value.userId == owner
    ensures r.Err? ==> r.error == NotFound
  {
    var found := FindOwned(store, owner, id);
    if found.Some? then Ok(found.value) else Err(NotFound)
  }

  /** On a valid store, lookup succeeds exactly for an existing id owned by
      the caller, and returns that attempt. */
  lemma GetByIdExact(store: Store, owner: UserId, id: AttemptId)
    requires Valid(store)
    ensures GetById(store, owner, id).Ok? <==> id < |store| && store[id].userId == owner
    ensures GetById(store, owner, id).Ok? ==> GetById(store, owner, id).value == store[id]
  {
    var r := GetById(store, owner, id);
    if r.Ok? {
      var i :| 0 <= i < |store| && store[i].id == id && store[i].userId == owner;
      assert i == id;
      var j :| 0 <= j < |store| && store[j] == r.value;
      assert j == id;
    } else if id < |store| {
      assert store[id].id == id;
    }
  }

  /** A created attempt can be read back by its owner, and only by its owner. */
  lemma CreateThenGet(store: Store, owner: UserId, other: UserId, body: CreateBody, now: Millis)
    requires Valid(store)
    requires Create(store, owner, body, now).Ok?
    requires other != owner
    ensures var c := Create(store, owner, body, now).value;
            && GetById(c.store, owner, c.attempt.id) == Ok(c.attempt)
            && GetById(c.store, other, c.attempt.id) == Err(NotFound)
  {
    var c := Create(store, owner, body, now).value;
    GetByIdExact(c.store, owner, c.attempt.id);
    GetByIdExact(c.store, other, c.attempt.id);
  }

  // ---------------------------------------------------------------- list

  /** Query string of `GET /api/attempts`, with page and limit already
      converted by `Number(..)`. The sort option is always the default. */
  datatype ListQuery = ListQuery(
    topic: Option<string>,
    quizType: Option<string>,
    page: Option<int>,
    limit: Option<int>)

  datatype Page = Page(items: seq<Attempt>, total: nat, page: int, limit: int)

  const DefaultPage: int := 1
  const DefaultLimit: int := 10

  /** `if (v && v !== "all") q.field = v`: an absent, empty or "all" value
      adds no constraint. */
  function Constraint(v: Option<string>): (c: Option<string>)
    ensures c.None? <==> v.None? || v.value == "" || v.value == "all"
    ensures c.Some? ==> c == v
  {
    if Truthy(v) && v.value != "all" then v else None
  }

  /** The canonical Mongo filter of the list handler: always the caller's
      attempts, narrowed by topic and quiz type when those constrain. */
  datatype Criteria = Criteria(owner: UserId, topic: Option<string>, quizType: Option<string>)

  function Normalize(owner: UserId, q: ListQuery): (c: Criteria)
    ensures c.owner == owner
    ensures c.topic.None? <==> q.topic.None? || q.topic.value in {"", "all"}
    ensures c.quizType.None? <==> q.quizType.None? || q.quizType.value in {"", "all"}
    ensures c.topic.Some? ==> c.topic == q.topic
    ensures c.quizType.Some? ==> c.quizType == q.quizType
  {
    Criteria(owner, Constraint(q.topic), Constraint(q.quizType))
  }

  predicate Matches(c: Criteria, a: Attempt) {
    && a.userId == c.owner
    && (c.topic.None? || a.topic == c.topic.value)
    && (c.quizType.None? || QuizTypeName(a.quizType) == c.quizType.value)
  }

  function Matcher(c: Criteria): Attempt -> bool {
    a => Matches(c, a)
  }

  /** The attempts satisfying the criteria, in store order. */
  function Matching(store: Store, c: Criteria): (m: seq<Attempt>)
    ensures forall i :: 0 <= i < |m| ==> Matches(c, m[i]) && m[i] in store
    ensures forall a :: a in store && Matches(c, a) ==> a in m
  {
    Filter(store, Matcher(c))
  }

  /** `sort = "-completedAt"`: newest first. The order among attempts
      completed at the same instant is left open. */
  function CompletedAtKey(a: Attempt): int {
    a.completedAt
  }

  function NewestFirst(s: seq<Attempt>): (r: seq<Attempt>)
    ensures multiset(r) == multiset(s)
    ensures |r| == |s|
    ensures forall i :: 0 <= i < |r| ==> r[i] in s
    ensures forall i, j :: 0 <= i < j < |r| ==> r[i].completedAt >= r[j].completedAt
  {
    var r := SortDesc(s, CompletedAtKey);
    assert forall i :: 0 <= i < |r| ==> r[i] in multiset(s);
    r
  }

  function Abs(x: int): nat {
    if x < 0 then -x else x
  }

  /** How many records `.limit(limit)` lets through out of `available`:
      0 means no limit, a negative limit acts as its absolute value. */
  function Take(limit: int, available: nat): (n: nat)
    ensures n <= available
    ensures limit != 0 ==> n == if available < Abs(limit) then available else Abs(limit)
    ensures limit == 0 ==> n == available
  {
    if limit == 0 || available < Abs(limit) then available else Abs(limit)
  }

  /** `.skip(skip).limit(limit)` applied to an ordered result. */
  function Window(sorted: seq<Attempt>, skip: nat, limit: int): (w: seq<Attempt>)
    ensures |w| == Take(limit, if |sorted| < skip then 0 else |sorted| - skip)
    ensures forall i :: 0 <= i < |w| ==> skip + i < |sorted| && w[i] == sorted[skip + i]
  {
    if skip <= |sorted| then sorted[skip..][..Take(limit, |sorted| - skip)] else []
  }

  /** `(Number(page) - 1) * Number(limit)`. */
  function Skip(page: int, limit: int): int {
    (page - 1) * limit
  }

  /** `.sort(sort).skip(skip).limit(limit)` and `countDocuments` over the
      matching attempts. */
  function Paginate(m: seq<Attempt>, page: int, limit: int): (r: Result<Page>)
    ensures r.Err? <==> Skip(page, limit) < 0
    ensures r.Err? ==> r.error == ServerError(NegativeSkip)
    ensures r.Ok? ==> r.value == Page(Window(NewestFirst(m), Skip(page, limit), limit), |m|, page, limit)
  {
    if Skip(page, limit) < 0 then Err(ServerError(NegativeSkip))
    else Ok(Page(Window(NewestFirst(m), Skip(page, limit), limit), |m|, page, limit))
  }

  /** `GET /api/attempts`: the page of the caller's matching attempts, newest
      first, after skipping `(page - 1) * limit` of them, together with the
      number of all matching attempts regardless of the page. A negative skip
      is refused by the store. */
  function List(store: Store, owner: UserId, q: ListQuery): (r: Result<Page>)
    ensures var page := Defaulted(q.page, DefaultPage);
            var limit := Defaulted(q.limit, DefaultLimit);
            var skip := Skip(page, limit);
            && (r.Err? <==> skip < 0)
            && (r.Err? ==> r.error == ServerError(NegativeSkip))
            && (r.Ok? ==>
                  && r.value.page == page && r.value.limit == limit
                  && r.value.total == |Matching(store, Normalize(owner, q))|
                  && |r.value.items| == Take(limit, if r.value.total < skip then 0 else r.value.total - skip))
    ensures r.Ok? ==> forall i :: 0 <= i < |r.value.items| ==>
                        && r.value.items[i].userId == owner
                        && Matches(Normalize(owner, q), r.value.items[i])
                        && r.value.items[i] in store
    ensures r.Ok? ==> forall i, j :: 0 <= i < j < |r.value.items| ==>
                        r.value.items[i].completedAt >= r.value.items[j].completedAt
  {
    var c := Normalize(owner, q);
    var page := Defaulted(q.page, DefaultPage);
    var limit := Defaulted(q.limit, DefaultLimit);
    if Skip(page, limit) < 0 then Paginate(Matching(store, c), page, limit)
    else
      WindowOfMatching(store, c, Skip(page, limit), limit);
      Paginate(Matching(store, c), page, limit)
  }

  /** A window of the sorted matches holds only matching attempts of the
      store, newest first. */
  lemma WindowOfMatching(store: Store, c: Criteria, skip: nat, limit: int)
    ensures var w := Window(NewestFirst(Matching(store, c)), skip, limit);
            && (forall i :: 0 <= i < |w| ==> Matches(c, w[i]) && w[i] in store)
            && (forall i, j :: 0 <= i < j < |w| ==> w[i].completedAt >= w[j].completedAt)
  {
    var m := Matching(store, c);
    var sorted := NewestFirst(m);
    var w := Window(sorted, skip, limit);
    forall i | 0 <= i < |w|
      ensures Matches(c, w[i]) && w[i] in store
    {
      assert w[i] == sorted[skip + i];
      assert sorted[skip + i] in m;
    }
    forall i, j | 0 <= i < j < |w|
      ensures w[i].completedAt >= w[j].completedAt
    {
      assert w[i] == sorted[skip + i] && w[j] == sorted[skip + j];
    }
  }

  /** Row `j` of page `p` is the attempt at position `(p - 1) * limit + j` of
      the newest-first matching attempts, whenever that position exists:
      consecutive pages tile the whole result without gaps or overlaps. */
  lemma PagesTile(store: Store, owner: UserId, q: ListQuery, p: int, j: nat)
    requires q.limit.Some? && q.limit.value > 0 && j < q.limit.value
    requires p >= 1
    requires Skip(p, q.limit.value) + j < |Matching(store, Normalize(owner, q))|
    ensures var r := List(store, owner, q.(page := Some(p)));
            && r.Ok?
            && j < |r.value.items|
            && r.value.items[j] == NewestFirst(Matching(store, Normalize(owner, q)))[Skip(p, q.limit.value) + j]
  {
    var q' := q.(page := Some(p));
    var limit := q.limit.value;
    var skip := Skip(p, limit);
    assert skip >= 0 by {
      MulNonNeg(p - 1, limit);
    }
    assert Normalize(owner, q') == Normalize(owner, q);
    ListWindow(store, owner, q', skip);
    WindowAt(NewestFirst(Matching(store, Normalize(owner, q))), skip, limit, j);
  }

  lemma MulNonNeg(a: int, b: int)
    requires a >= 0 && b >= 0
    ensures a * b >= 0
  {
  }

  /** The items of an answered list are the window of the sorted matches. */
  lemma ListWindow(store: Store, owner: UserId, q: ListQuery, skip: nat)
    requires skip == Skip(Defaulted(q.page, DefaultPage), Defaulted(q.limit, DefaultLimit))
    ensures List(store, owner, q).Ok?
    ensures List(store, owner, q).value.items
         == Window(NewestFirst(Matching(store, Normalize(owner, q))), skip, Defaulted(q.limit, DefaultLimit))
  {
  }

  lemma WindowAt(sorted: seq<Attempt>, skip: nat, limit: int, j: nat)
    requires limit > 0 && j < limit && skip + j < |sorted|
    ensures j < |Window(sorted, skip, limit)|
    ensures Window(sorted, skip, limit)[j] == sorted[skip + j]
  {
  }

  /** With positive page and limit the list always answers, and the page is
      non-empty exactly when fewer attempts than `(page - 1) * limit` come
      before it. */
  lemma PageNonEmpty(store: Store, owner: UserId, q: ListQuery)
    requires q.page.Some? && q.page.value >= 1
    requires q.limit.Some? && q.limit.value >= 1
    ensures List(store, owner, q).Ok?
    ensures |List(store, owner, q).value.items| > 0
            <==> (q.page.value - 1) * q.limit.value < |Matching(store, Normalize(owner, q))|
  {
    PageNonEmptySkip(store, owner, q, q.page.value, q.limit.value);
  }

  lemma PageNonEmptySkip(store: Store, owner: UserId, q: ListQuery, page: int, limit: int)
    requires q.page == Some(page) && page >= 1
    requires q.limit == Some(limit) && limit >= 1
    ensures List(store, owner, q).Ok?
    ensures |List(store, owner, q).value.items| > 0 <==> Skip(page, limit) < List(store, owner, q).value.total
  {
    MulNonNeg(page - 1, limit);
    ListWindow(store, owner, q, Skip(page, limit));
  }

  /** The page after page `p` has items exactly when more than `p * limit`
      attempts match. */
  lemma NextPageNonEmpty(store: Store, owner: UserId, q: ListQuery, page: int, limit: int)
    requires q.page == Some(page) && page >= 1
    requires q.limit == Some(limit) && limit >= 1
    ensures List(store, owner, q).Ok?
    ensures List(store, owner, q.(page := Some(page + 1))).Ok?
    ensures |List(store, owner, q.(page := Some(page + 1))).value.items| > 0
            <==> page * limit < List(store, owner, q).value.total
  {
    var q' := q.(page := Some(page + 1));
    PageNonEmptySkip(store, owner, q, page, limit);
    PageNonEmptySkip(store, owner, q', page + 1, limit);
    assert Normalize(owner, q') == Normalize(owner, q);
    SkipNext(page, limit);
  }

  lemma SkipNext(page: int, limit: int)
    ensures Skip(page + 1, limit) == page * limit
  {
  }

  /** The total of a list answer does not depend on the page asked for. */
  lemma ListTotalIgnoresPage(store: Store, owner: UserId, q: ListQuery, p1: int, p2: int)
    requires Skip(p1, Defaulted(q.limit, DefaultLimit)) >= 0
    requires Skip(p2, Defaulted(q.limit, DefaultLimit)) >= 0
    ensures List(store, owner, q.(page := Some(p1))).Ok?
    ensures List(store, owner, q.(page := Some(p2))).Ok?
    ensures List(store, owner, q.(page := Some(p1))).value.total
         == List(store, owner, q.(page := Some(p2))).value.total
  {
    assert Normalize(owner, q.(page := Some(p1))) == Normalize(owner, q.(page := Some(p2)));
  }

  /** `topic=all` and `quizType=all` give the same answer as leaving the
      parameters out. */
  lemma AllMeansUnfiltered(store: Store, owner: UserId, q: ListQuery)
    requires q.topic == Some("all") || q.topic == None
    requires q.quizType == Some("all") || q.quizType == None
    ensures List(store, owner, q) == List(store, owner, q.(topic := None, quizType := None))
  {
    assert Normalize(owner, q) == Normalize(owner, q.(topic := None, quizType := None));
  }

  /** The list only ever shows attempts of the caller: attempts of other
      users do not change it. */
  lemma ListIgnoresOtherOwners(store: Store, owner: UserId, q: ListQuery, a: Attempt)
    requires a.userId != owner
    ensures List(store + [a], owner, q) == List(store, owner, q)
  {
    FilterAppend(store, a, Matcher(Normalize(owner, q)));
  }
}

=== FILE: attempt_summary.dfy ===
/** `GET /api/attempts/stats/summary` (backend/routes/attempts.js): the
    caller's attempt count, the count of the last seven days, and the
    per-topic attempt counts with their rounded mean percentage, sorted by
    count, most attempted first. */
module AttemptSummary {
  import opened Responses
  import opened Seqs
  import opened QuizAttempt
  import opened AttemptStore

  /** Seven days in milliseconds. */
  const WeekMillis: int := 7 * 24 * 60 * 60 * 1000

  datatype TopicStat = TopicStat(topic: string, attempts: nat, avgPercent: int)

  datatype Summary = Summary(totalAttempts: nat, attemptsLast7Days: nat, byTopic: seq<TopicStat>)

  /** `{ userId: owner }`: the same filter as an unconstrained list query. */
  function Owned(store: Store, owner: UserId): seq<Attempt> {
    Matching(store, Criteria(owner, None, None))
  }

  function CompletedSince(since: Millis): Attempt -> bool {
    (a: Attempt) => a.completedAt >= since
  }

  function HasTopic(t: string): Attempt -> bool {
    (a: Attempt) => a.topic == t
  }

  /** The attempts of `s` whose topic is `t`. */
  function Group(s: seq<Attempt>, t: string): (g: seq<Attempt>)
    ensures forall i :: 0 <= i < |g| ==> g[i].topic == t && g[i] in s
    ensures forall a :: a in s && a.topic == t ==> a in g
  {
    Filter(s, HasTopic(t))
  }

  /** Some attempt of `s` has topic `t`. */
  predicate HasTopicIn(s: seq<Attempt>, t: string) {
    exists i :: 0 <= i < |s| && s[i].topic == t
  }

  lemma HasTopicInSnoc(s: seq<Attempt>, t: string)
    requires |s| > 0
    ensures HasTopicIn(s, t) <==> HasTopicIn(s[..|s| - 1], t) || s[|s| - 1].topic == t
  {
    var init := s[..|s| - 1];
    if HasTopicIn(s, t) {
      var i :| 0 <= i < |s| && s[i].topic == t;
      if i < |init| { assert init[i] == s[i]; }
    }
    if HasTopicIn(init, t) {
      var i :| 0 <= i < |init| && init[i].topic == t;
      assert s[i] == init[i];
    }
  }

  /** The distinct topics of `s` in order of first appearance: the `_id`s of
      `$group: { _id: "$topic" }`. */
  function Topics(s: seq<Attempt>): (r: seq<string>)
    ensures forall i, j :: 0 <= i < j < |r| ==> r[i] != r[j]
    ensures forall t :: t in r <==> HasTopicIn(s, t)
  {
    if |s| == 0 then []
    else
      var p := Topics(s[..|s| - 1]);
      var t := s[|s| - 1].topic;
      assert forall u :: HasTopicIn(s, u) <==> HasTopicIn(s[..|s| - 1], u) || u == t by {
        forall u ensures HasTopicIn(s, u) <==> HasTopicIn(s[..|s| - 1], u) || u == t {
          HasTopicInSnoc(s, u);
        }
      }
      if t in p then p else p + [t]
  }

  /** Every divisor of `$divide: ["$score", "$total"]` is non-zero. */
  predicate NonZeroTotals(s: seq<Attempt>) {
    forall i :: 0 <= i < |s| ==> s[i].total != 0
  }

  /** The sum of `score / total * 100` over `s`, exactly. */
  function RatioSum(s: seq<Attempt>): real
    requires NonZeroTotals(s)
  {
    if |s| == 0 then 0.0 else Ratio(s[0].score, s[0].total) + RatioSum(s[1..])
  }

  /** One `byTopic` entry: how many of the caller's attempts have topic `t`,
      and `Math.round` of the mean of their exact percentages. */
  function Stat(s: seq<Attempt>, t: string): (st: TopicStat)
    requires NonZeroTotals(s)
    requires t in Topics(s)
    ensures st.topic == t && st.attempts == |Group(s, t)| && st.attempts > 0
    ensures var g := Group(s, t);
            st.avgPercent as real - 0.5 <= RatioSum(g) / (|g| as real) < st.avgPercent as real + 0.5
  {
    var g := Group(s, t);
    assert HasTopicIn(s, t);
    var i :| 0 <= i < |s| && s[i].topic == t;
    assert s[i] in g;
    assert NonZeroTotals(g) by {
      forall k | 0 <= k < |g| ensures g[k].total != 0 {
        var j :| 0 <= j < |s| && s[j] == g[k];
      }
    }
    TopicStat(t, |g|, RoundHalfUp(RatioSum(g) / (|g| as real)))
  }

  function Stats(s: seq<Attempt>, ts: seq<string>): (r: seq<TopicStat>)
    requires NonZeroTotals(s)
    requires forall i :: 0 <= i < |ts| ==> ts[i] in Topics(s)
    ensures |r| == |ts|
    ensures forall i :: 0 <= i < |ts| ==> r[i] == Stat(s, ts[i])
  {
    seq(|ts|, i requires 0 <= i < |ts| => Stat(s, ts[i]))
  }

  function AttemptsKey(st: TopicStat): int {
    st.attempts
  }

  /** `$sort: { attempts: -1 }` over the groups of `s`; the order among
      equal counts is left open. Every topic of `s` has exactly its own
      entry. */
  function ByTopic(s: seq<Attempt>): (r: seq<TopicStat>)
    requires NonZeroTotals(s)
    ensures forall i, j :: 0 <= i < j < |r| ==> r[i].attempts >= r[j].attempts
    ensures forall i :: 0 <= i < |r| ==> HasTopicIn(s, r[i].topic) && r[i] == Stat(s, r[i].topic)
    ensures forall t :: HasTopicIn(s, t) ==> exists i :: 0 <= i < |r| && r[i].topic == t
    ensures |r| == |Topics(s)|
  {
    var ts := Topics(s);
    var stats := Stats(s, ts);
    var r := SortDesc(stats, AttemptsKey);
    PermutedStats(s, ts, stats, r);
    r
  }

  lemma PermutedStats(s: seq<Attempt>, ts: seq<string>, stats: seq<TopicStat>, r: seq<TopicStat>)
    requires NonZeroTotals(s)
    requires forall t :: t in ts <==> HasTopicIn(s, t)
    requires |stats| == |ts| && forall k :: 0 <= k < |ts| ==> stats[k] == Stat(s, ts[k])
    requires multiset(r) == multiset(stats)
    ensures forall i :: 0 <= i < |r| ==> HasTopicIn(s, r[i].topic) && r[i] == Stat(s, r[i].topic)
    ensures forall t :: HasTopicIn(s, t) ==> exists i :: 0 <= i < |r| && r[i].topic == t
  {
    forall i | 0 <= i < |r|
      ensures HasTopicIn(s, r[i].topic) && r[i] == Stat(s, r[i].topic)
    {
      assert r[i] in multiset(stats);
      var k :| 0 <= k < |stats| && stats[k] == r[i];
      assert ts[k] in ts;
    }
    forall t | HasTopicIn(s, t)
      ensures exists i :: 0 <= i < |r| && r[i].topic == t
    {
      var k :| 0 <= k < |ts| && ts[k] == t;
      assert stats[k] in multiset(r);
      var i :| 0 <= i < |r| && r[i] == stats[k];
    }
  }

  /** The caller's attempts all have non-zero totals exactly when no attempt
      of the caller in the store has a zero total. */
  lemma OwnedNonZero(store: Store, owner: UserId)
    ensures NonZeroTotals(Owned(store, owner)) <==>
            forall i :: 0 <= i < |store| && store[i].userId == owner ==> store[i].total != 0
  {
    var owned := Owned(store, owner);
    if !NonZeroTotals(owned) {
      var k :| 0 <= k < |owned| && owned[k].total == 0;
      var i :| 0 <= i < |store| && store[i] == owned[k];
    }
    forall i | 0 <= i < |store| && store[i].userId == owner
      ensures store[i] in owned
    {
      assert Matches(Criteria(owner, None, None), store[i]);
    }
  }

  /** None of `owner`'s attempts has a zero total, so every one of them can
      be turned into a percentage. */
  predicate Summarizable(store: Store, owner: UserId) {
    forall i :: 0 <= i < |store| && store[i].userId == owner ==> store[i].total != 0
  }

  /** The summary of `owner`'s attempts at time `now`. Grouping divides every
      score by its total, so a zero total anywhere in the caller's attempts
      makes the aggregation, and the whole request, fail. */
  function Summarize(store: Store, owner: UserId, now: Millis): (r: Result<Summary>)
    ensures r.Err? <==> !Summarizable(store, owner)
    ensures r.Err? ==> r.error == ServerError(DivideByZero)
    ensures r.Ok? ==> var owned := Owned(store, owner);
                      && r.value.totalAttempts == |owned|
                      && r.value.attemptsLast7Days == |Filter(owned, CompletedSince(now - WeekMillis))|
                      && r.value.attemptsLast7Days <= r.value.totalAttempts
                      && r.value.byTopic == ByTopic(owned)
  {
    var owned := Owned(store, owner);
    OwnedNonZero(store, owner);
    if !NonZeroTotals(owned) then
      Err(ServerError(DivideByZero))
    else
      var recent := Filter(owned, CompletedSince(now - WeekMillis));
      Ok(Summary(|owned|, |recent|, ByTopic(owned)))
  }

  // ------------------------------------------------------------ properties

  /** The sum of the group sizes for the topics `ts`. */
  function CountsOf(s: seq<Attempt>, ts: seq<string>): int {
    if |ts| == 0 then 0 else |Group(s, ts[0])| + CountsOf(s, ts[1..])
  }

  lemma {:induction false} StatsSum(s: seq<Attempt>, ts: seq<string>)
    requires NonZeroTotals(s)
    requires forall i :: 0 <= i < |ts| ==> ts[i] in Topics(s)
    ensures SumBy(Stats(s, ts), AttemptsKey) == CountsOf(s, ts)
  {
    if |ts| > 0 {
      var r, r' := Stats(s, ts), Stats(s, ts[1..]);
      assert r[1..] == r' by {
        forall i | 0 <= i < |r'|
          ensures r[1..][i] == r'[i]
        {
          assert ts[1..][i] == ts[i + 1];
        }
      }
      assert AttemptsKey(r[0]) == |Group(s, ts[0])|;
      StatsSum(s, ts[1..]);
    }
  }

  lemma {:induction false} CountsSnocTopic(s: seq<Attempt>, ts: seq<string>, t: string)
    ensures CountsOf(s, ts + [t]) == CountsOf(s, ts) + |Group(s, t)|
  {
    if |ts| > 0 {
      assert (ts + [t])[1..] == ts[1..] + [t];
      CountsSnocTopic(s, ts[1..], t);
    }
  }

  lemma {:induction false} CountsSnocAttempt(s: seq<Attempt>, a: Attempt, ts: seq<string>)
    requires forall i, j :: 0 <= i < j < |ts| ==> ts[i] != ts[j]
    ensures CountsOf(s + [a], ts) == CountsOf(s, ts) + if a.topic in ts then 1 else 0
  {
    if |ts| > 0 {
      FilterAppend(s, a, HasTopic(ts[0]));
      assert a.topic == ts[0] ==> a.topic !in ts[1..];
      assert a.topic in ts <==> a.topic == ts[0] || a.topic in ts[1..];
      CountsSnocAttempt(s, a, ts[1..]);
    }
  }

  lemma GroupEmpty(s: seq<Attempt>, t: string)
    requires !HasTopicIn(s, t)
    ensures |Group(s, t)| == 0
  {
    FilterNone(s, HasTopic(t));
  }

  /** Every attempt is counted in exactly one topic group. */
  lemma {:induction false} CountsCoverAll(s: seq<Attempt>)
    ensures CountsOf(s, Topics(s)) == |s|
  {
    if |s| > 0 {
      var init := s[..|s| - 1];
      var a := s[|s| - 1];
      assert s == init + [a];
      CountsCoverAll(init);
      var p := Topics(init);
      CountsSnocAttempt(init, a, p);
      if a.topic !in p {
        CountsSnocTopic(s, p, a.topic);
        GroupEmpty(init, a.topic);
        FilterAppend(init, a, HasTopic(a.topic));
      }
    }
  }

  /** The `attempts` of the `byTopic` entries add up to `totalAttempts`. */
  lemma ByTopicSumsToTotal(store: Store, owner: UserId, now: Millis)
    requires Summarizable(store, owner)
    ensures var r := Summarize(store, owner, now).value;
            SumBy(r.byTopic, AttemptsKey) == r.totalAttempts
  {
    var owned := Owned(store, owner);
    StatsSum(owned, Topics(owned));
    CountsCoverAll(owned);
  }

  /** `totalAttempts` is the total of the unfiltered, unlimited list. */
  lemma SummaryTotalIsListTotal(store: Store, owner: UserId, now: Millis)
    requires Summarizable(store, owner)
    ensures List(store, owner, ListQuery(None, None, Some(1), Some(0))).value.total
         == Summarize(store, owner, now).value.totalAttempts
  {
  }

  /** Appending an attempt extends exactly its owner's attempts. */
  lemma OwnedSnoc(store: Store, a: Attempt, owner: UserId)
    ensures Owned(store + [a], owner)
         == if a.userId == owner then Owned(store, owner) + [a] else Owned(store, owner)
  {
    FilterAppend(store, a, Matcher(Criteria(owner, None, None)));
  }

  /** A new attempt of `owner`, completed now, adds one to the owner's
      total and to the count of the last seven days. */
  lemma AppendCountsOnce(store: Store, a: Attempt, now: Millis)
    requires Summarizable(store, a.userId)
    requires a.completedAt == now && a.total != 0
    ensures Summarize(store + [a], a.userId, now).Ok?
    ensures Summarize(store + [a], a.userId, now).value.totalAttempts
         == Summarize(store, a.userId, now).value.totalAttempts + 1
    ensures Summarize(store + [a], a.userId, now).value.attemptsLast7Days
         == Summarize(store, a.userId, now).value.attemptsLast7Days + 1
  {
    var owned := Owned(store, a.userId);
    OwnedSnoc(store, a, a.userId);
    FilterAppend(owned, a, CompletedSince(now - WeekMillis));
    OwnedNonZero(store, a.userId);
    OwnedNonZero(store + [a], a.userId);
    assert NonZeroTotals(owned + [a]);
  }

  /** A new attempt of one user leaves every other user's summary as it was. */
  lemma AppendIgnoredByOthers(store: Store, a: Attempt, other: UserId, now: Millis)
    requires a.userId != other
    ensures Summarize(store + [a], other, now) == Summarize(store, other, now)
  {
    OwnedSnoc(store, a, other);
    OwnedNonZero(store, other);
    OwnedNonZero(store + [a], other);
  }

  /** Creating an attempt adds one to the creator's total and to the count of
      the last seven days, and leaves every other user's summary as it was. */
  lemma CreateCountsOnce(store: Store, owner: UserId, other: UserId, body: CreateBody, now: Millis)
    requires Create(store, owner, body, now).Ok?
    requires Summarizable(store, owner)
    requires body.total.value.n != 0
    requires other != owner
    ensures var store' := Create(store, owner, body, now).value.store;
            && Summarize(store', owner, now).Ok?
            && Summarize(store', owner, now).value.totalAttempts
               == Summarize(store, owner, now).value.totalAttempts + 1
            && Summarize(store', owner, now).value.attemptsLast7Days
               == Summarize(store, owner, now).value.attemptsLast7Days + 1
            && Summarize(store', other, now) == Summarize(store, other, now)
  {
    var c := Create(store, owner, body, now).value;
    AppendCountsOnce(store, c.attempt, now);
    AppendIgnoredByOthers(store, c.attempt, other, now);
  }

  /** With none of the caller's attempts inside the window, the seven-day
      count is 0 while the total still counts them all. */
  lemma NoRecentAttempts(store: Store, owner: UserId, now: Millis)
    requires Summarizable(store, owner)
    requires forall i :: 0 <= i < |store| && store[i].userId == owner ==>
               store[i].completedAt < now - WeekMillis
    ensures Summarize(store, owner, now).value.attemptsLast7Days == 0
  {
    var owned := Owned(store, owner);
    forall k | 0 <= k < |owned|
      ensures !CompletedSince(now - WeekMillis)(owned[k])
    {
      var i :| 0 <= i < |store| && store[i] == owned[k];
    }
    FilterNone(owned, CompletedSince(now - WeekMillis));
  }

  /** Two attempts on one topic make a single `byTopic` entry counting both,
      averaging their two exact percentages. */
  lemma OneTopicPair(a1: Attempt, a2: Attempt)
    requires a1.topic == a2.topic && a1.total != 0 && a2.total != 0
    ensures NonZeroTotals([a1, a2])
    ensures ByTopic([a1, a2]) == [TopicStat(a1.topic, 2,
              RoundHalfUp((Ratio(a1.score, a1.total) + Ratio(a2.score, a2.total)) / 2.0))]
  {
    PairByTopic(a1, a2);
    PairStat(a1, a2);
  }

  /** Two attempts on one topic have the statistics of that topic as their
      only entry. */
  lemma PairByTopic(a1: Attempt, a2: Attempt)
    requires a1.topic == a2.topic && a1.total != 0 && a2.total != 0
    ensures NonZeroTotals([a1, a2]) && a1.topic in Topics([a1, a2])
    ensures ByTopic([a1, a2]) == [Stat([a1, a2], a1.topic)]
  {
    var s := [a1, a2];
    PairTopics(a1, a2);
    var r := ByTopic(s);
    assert HasTopicIn(s, r[0].topic);
  }

  lemma PairStat(a1: Attempt, a2: Attempt)
    requires a1.topic == a2.topic && a1.total != 0 && a2.total != 0
    ensures NonZeroTotals([a1, a2]) && a1.topic in Topics([a1, a2])
    ensures Stat([a1, a2], a1.topic) == TopicStat(a1.topic, 2,
              RoundHalfUp((Ratio(a1.score, a1.total) + Ratio(a2.score, a2.total)) / 2.0))
  {
    var s := [a1, a2];
    PairTopics(a1, a2);
    PairGroup(a1, a2);
    PairRatioSum(a1, a2);
    var st := Stat(s, a1.topic);
    RoundHalfUpUnique(RatioSum(s) / 2.0, st.avgPercent);
  }

  lemma PairTopics(a1: Attempt, a2: Attempt)
    requires a1.topic == a2.topic
    ensures Topics([a1, a2]) == [a1.topic]
  {
    var s := [a1, a2];
    assert s[..1] == [a1] && [a1][..0] == [];
    assert Topics([a1]) == [a1.topic];
  }

  lemma PairGroup(a1: Attempt, a2: Attempt)
    requires a1.topic == a2.topic
    ensures Group([a1, a2], a1.topic) == [a1, a2]
  {
    var s := [a1, a2];
    assert s[..1] == [a1] && [a1][..0] == [];
    assert Group(s, a1.topic) == Filter(s, HasTopic(a1.topic));
  }

  lemma PairRatioSum(a1: Attempt, a2: Attempt)
    requires a1.total != 0 && a2.total != 0
    ensures NonZeroTotals([a1, a2])
    ensures RatioSum([a1, a2]) == Ratio(a1.score, a1.total) + Ratio(a2.score, a2.total)
  {
    var s := [a1, a2];
    assert s[1..] == [a2] && [a2][1..] == [];
    assert RatioSum([a2]) == Ratio(a2.score, a2.total) + RatioSum([]);
  }

  /** 8/10 and 4/10 on "Idioms" average to 60. */
  lemma IdiomsAverage(a1: Attempt, a2: Attempt)
    requires a1.topic == "Idioms" && a2.topic == "Idioms"
    requires a1.score == 8 && a1.total == 10 && a2.score == 4 && a2.total == 10
    ensures ByTopic([a1, a2]) == [TopicStat("Idioms", 2, 60)]
  {
    OneTopicPair(a1, a2);
    RoundHalfUpUnique(60.0, 60);
  }

  /** 5/10 and 9/10 average to 70, the mean of 50 and 90. */
  lemma SeventyAverage(a1: Attempt, a2: Attempt)
    requires a1.topic == a2.topic
    requires a1.score == 5 && a1.total == 10 && a2.score == 9 && a2.total == 10
    ensures ByTopic([a1, a2]) == [TopicStat(a1.topic, 2, 70)]
  {
    OneTopicPair(a1, a2);
    RoundHalfUpUnique(70.0, 70);
  }
}

=== FILE: decimal.dfy ===
/** Decimal rendering of non-negative integers, as JavaScript's `String(n)`
    and template literals produce it, and its inverse. */
module Decimal {

  predicate IsDigit(c: char) {
    '0' <= c <= '9'
  }

  predicate AllDigits(s: string) {
    forall i :: 0 <= i < |s| ==> IsDigit(s[i])
  }

  /** A decimal numeral as `String(n)` writes it: digits only, at least
      one, and no leading zero unless the numeral is "0". */
  predicate Canonical(s: string) {
    |s| > 0 && AllDigits(s) && (|s| == 1 || s[0] != '0')
  }

  function DigitChar(d: nat): (c: char)
    requires d < 10
    ensures IsDigit(c)
    ensures c as int - '0' as int == d
  {
    ('0' as int + d) as char
  }

  /** The decimal digits of `n`, most significant first, without leading
      zeros. */
  function Show(n: nat): (r: string)
    ensures Canonical(r)
    ensures n < 10 <==> |r| == 1
  {
    if n < 10 then [DigitChar(n)] else Show(n / 10) + [DigitChar(n % 10)]
  }

  /** The number a string of decimal digits denotes. */
  function Parse(s: string): nat
    requires AllDigits(s)
  {
    if |s| == 0 then 0
    else Parse(s[..|s| - 1]) * 10 + (s[|s| - 1] as int - '0' as int)
  }

  /** Rendering then reading back gives the original number. */
  lemma {:induction false} ParseShow(n: nat)
    ensures Parse(Show(n)) == n
  {
    if n >= 10 {
      var s := Show(n);
      assert s[..|s| - 1] == Show(n / 10);
      ParseShow(n / 10);
    }
  }

  /** Every canonical numeral is the rendering of the number it denotes, so
      `Show` and `Parse` are inverse bijections between naturals and
      canonical numerals. */
  lemma {:induction false} ShowParse(s: string)
    requires Canonical(s)
    ensures Show(Parse(s)) == s
  {
    if |s| > 1 {
      var init := s[..|s| - 1];
      assert init[0] == s[0];
      ShowParse(init);
      LeadingDigitPositive(init);
      var n := Parse(s);
      assert n / 10 == Parse(init) && n % 10 == s[|s| - 1] as int - '0' as int;
      assert s == init + [s[|s| - 1]];
    }
  }

  /** A numeral that does not start with '0' denotes a positive number. */
  lemma {:induction false} LeadingDigitPositive(s: string)
    requires |s| > 0 && AllDigits(s) && s[0] != '0'
    ensures Parse(s) >= 1
  {
    if |s| > 1 {
      assert s[..|s| - 1][0] == s[0];
      LeadingDigitPositive(s[..|s| - 1]);
    }
  }
}

=== FILE: history.dfy ===
/** The pure logic of the attempt-history page (js/history.js): duration
    formatting, the paging state and its button handlers, the query string
    sent to the list endpoint, and the "top topic" summary card. */
module History {
  import opened Responses
  import opened Seqs
  import opened Decimal
  import opened QuizAttempt
  import opened AttemptStore
  import opened AttemptSummary

  // ------------------------------------------------------------ fmtDur

  /** `fmtDur(s)`: "-" for a missing, zero or negative duration, otherwise
      whole minutes and remaining seconds, as in "2m 5s". */
  function FmtDur(s: Option<int>): (r: string)
    ensures r == "-" <==> s.None? || s.value <= 0
  {
    if s.None? || s.value <= 0 then "-"
    else Show(s.value / 60) + "m " + Show(s.value % 60) + "s"
  }

  function IsMinuteMark(c: char): bool {
    c == 'm'
  }

  /** Reads "{m}m {r}s", with both numbers written as `String(n)` writes
      them, back into its two numbers. */
  function ParseDur(str: string): Option<(nat, nat)> {
    var k := FirstIndex(str, IsMinuteMark);
    if 0 < k && k + 2 < |str| && str[k + 1] == ' ' && str[|str| - 1] == 's'
       && Canonical(str[..k]) && Canonical(str[k + 2..|str| - 1])
    then Some((Parse(str[..k]), Parse(str[k + 2..|str| - 1])))
    else None
  }

  /** The only strings read as a duration are the renderings
      "{m}m {r}s" themselves. */
  lemma ParseDurOnlyShown(str: string)
    requires ParseDur(str).Some?
    ensures var (m, r) := ParseDur(str).value;
            str == Show(m) + "m " + Show(r) + "s"
  {
    var k := FirstIndex(str, IsMinuteMark);
    var ms, rs := str[..k], str[k + 2..|str| - 1];
    ShowParse(ms);
    ShowParse(rs);
    assert str == ms + "m " + rs + "s";
  }

  /** A positive duration is shown as "{m}m {r}s" for the minutes and
      seconds that add back up to it, with fewer than 60 seconds. */
  lemma FmtDurRoundTrip(s: int)
    requires s > 0
    ensures var d := ParseDur(FmtDur(Some(s)));
            && d.Some?
            && d.value.0 * 60 + d.value.1 == s
            && d.value.1 < 60
            && FmtDur(Some(s)) == Show(d.value.0) + "m " + Show(d.value.1) + "s"
  {
    ParseDurShown(s / 60, s % 60);
    ParseDurOnlyShown(FmtDur(Some(s)));
  }

  /** An empty or zero-padded field is not a rendered number. */
  lemma MalformedDurationsRejected()
    ensures ParseDur("1m s").None?
    ensures ParseDur("01m 5s").None?
    ensures ParseDur("1m 05s").None?
  {
    assert FirstIndex("1m s", IsMinuteMark) == 1 by {
      MinuteMarkAt("1", "");
    }
    assert FirstIndex("01m 5s", IsMinuteMark) == 2 by {
      MinuteMarkAt("01", "5");
    }
    assert FirstIndex("1m 05s", IsMinuteMark) == 1 by {
      MinuteMarkAt("1", "05");
    }
  }

  /** "{m}m {r}s" reads back as `(m, r)`. */
  lemma ParseDurShown(m: nat, r: nat)
    ensures ParseDur(Show(m) + "m " + Show(r) + "s") == Some((m, r))
  {
    var ms, rs := Show(m), Show(r);
    var str := ms + "m " + rs + "s";
    var k := |ms|;
    MinuteMarkAt(ms, rs);
    assert str[..k] == ms;
    assert str[k + 2..|str| - 1] == rs;
    ParseShow(m);
    ParseShow(r);
  }

  lemma MinuteMarkAt(ms: string, rs: string)
    requires AllDigits(ms)
    ensures FirstIndex(ms + "m " + rs + "s", IsMinuteMark) == |ms|
  {
    var str := ms + "m " + rs + "s";
    assert str[|ms|] == 'm';
    assert forall j :: 0 <= j < |ms| ==> str[j] == ms[j] && !IsMinuteMark(str[j]);
  }

  // ------------------------------------------------------------ paging

  /** The page's `state` object. */
  datatype State = State(page: int, limit: int, topic: string, quizType: string)

  const Initial: State := State(1, 10, "all", "all")

  /** Page and limit stay positive from the initial state on. */
  ghost predicate Paged(st: State) {
    st.page >= 1 && st.limit >= 1
  }

  /** The clicks the page reacts to: Apply (with the two filter selections),
      Prev and Next. */
  datatype Event = Apply(topic: string, quizType: string) | PrevClicked | NextClicked

  predicate PrevDisabled(st: State) {
    st.page <= 1
  }

  predicate NextDisabled(st: State, total: int) {
    total <= st.page * st.limit
  }

  /** The handlers of `bindUI`. Apply takes the selections and returns to
      page 1; Prev goes back one page unless already on the first; Next
      always goes forward one page. The limit never changes. */
  function Step(st: State, e: Event): (st': State)
    ensures st'.limit == st.limit
    ensures Paged(st) ==> Paged(st')
    ensures e.Apply? ==> st'.page == 1 && st'.topic == e.topic && st'.quizType == e.quizType
    ensures !e.Apply? ==> st'.topic == st.topic && st'.quizType == st.quizType
    ensures e.PrevClicked? ==> (st' == st <==> PrevDisabled(st))
    ensures e.PrevClicked? && !PrevDisabled(st) ==> st'.page + 1 == st.page
    ensures e.NextClicked? ==> st'.page == st.page + 1
  {
    match e
    case Apply(topic, quizType) => st.(topic := topic, quizType := quizType, page := 1)
    case PrevClicked => if st.page > 1 then st.(page := st.page - 1) else st
    case NextClicked => st.(page := st.page + 1)
  }

  function Run(st: State, es: seq<Event>): State
    decreases |es|
  {
    if |es| == 0 then st else Run(Step(st, es[0]), es[1..])
  }

  /** Whatever the user clicks, the page number never drops below 1 and the
      limit stays 10. */
  lemma {:induction false} RunStaysValid(es: seq<Event>, st: State)
    requires Paged(st)
    ensures Paged(Run(st, es)) && Run(st, es).limit == st.limit
  {
    if |es| > 0 {
      RunStaysValid(es[1..], Step(st, es[0]));
    }
  }

  lemma ReachableStatesValid(es: seq<Event>)
    ensures Run(Initial, es).page >= 1 && Run(Initial, es).limit == 10
  {
    RunStaysValid(es, Initial);
  }

  // ------------------------------------------------------------ query string

  type Params = seq<(string, string)>

  /** `loadAttempts`' search parameters: page and limit always, topic and
      quiz type only when not "all". */
  function QueryParams(st: State): (ps: Params)
    requires Paged(st)
    ensures |ps| >= 2 && ps[0] == ("page", Show(st.page)) && ps[1] == ("limit", Show(st.limit))
    ensures ("topic", st.topic) in ps <==> st.topic != "all"
    ensures ("quizType", st.quizType) in ps <==> st.quizType != "all"
    ensures forall i :: 2 <= i < |ps| ==> ps[i] == ("topic", st.topic) || ps[i] == ("quizType", st.quizType)
  {
    [("page", Show(st.page)), ("limit", Show(st.limit))]
    + (if st.topic != "all" then [("topic", st.topic)] else [])
    + (if st.quizType != "all" then [("quizType", st.quizType)] else [])
  }

  function Lookup(ps: Params, key: string): (r: Option<string>)
    ensures r.None? <==> forall i :: 0 <= i < |ps| ==> ps[i].0 != key
    ensures r.Some? ==> exists i :: 0 <= i < |ps| && ps[i] == (key, r.value)
  {
    if |ps| == 0 then None
    else if ps[0].0 == key then Some(ps[0].1)
    else
      var r := Lookup(ps[1..], key);
      assert forall i :: 1 <= i < |ps| ==> ps[i] == ps[1..][i - 1];
      r
  }

  /** A numeric query parameter is a string of decimal digits. */
  ghost predicate Numeric(v: Option<string>) {
    v.Some? ==> |v.value| > 0 && AllDigits(v.value)
  }

  /** How the list handler reads the query string: `Number(..)` of page and
      limit, topic and quiz type as given. */
  function ReadQuery(ps: Params): ListQuery
    requires Numeric(Lookup(ps, "page")) && Numeric(Lookup(ps, "limit"))
  {
    var page := Lookup(ps, "page");
    var limit := Lookup(ps, "limit");
    ListQuery(
      Lookup(ps, "topic"),
      Lookup(ps, "quizType"),
      if page.Some? then Some(Parse(page.value)) else None,
      if limit.Some? then Some(Parse(limit.value)) else None)
  }

  /** The request the page sends carries its page and limit, and constrains
      topic and quiz type exactly when the selection is not "all". */
  lemma RequestReflectsState(st: State)
    requires Paged(st)
    ensures Numeric(Lookup(QueryParams(st), "page")) && Numeric(Lookup(QueryParams(st), "limit"))
    ensures var q := ReadQuery(QueryParams(st));
            && q.page == Some(st.page)
            && q.limit == Some(st.limit)
            && (q.topic.Some? <==> st.topic != "all")
            && (q.topic.Some? ==> q.topic.value == st.topic)
            && (q.quizType.Some? <==> st.quizType != "all")
            && (q.quizType.Some? ==> q.quizType.value == st.quizType)
  {
    var ps := QueryParams(st);
    assert ps[0] == ("page", Show(st.page));
    assert ps[1] == ("limit", Show(st.limit));
    ParseShow(st.page);
    ParseShow(st.limit);
    if st.topic != "all" {
      assert ps[2] == ("topic", st.topic);
    }
    if st.quizType != "all" {
      assert ps[|ps| - 1] == ("quizType", st.quizType);
    }
  }

  /** The request of a state, as the list handler sees it. */
  function Request(st: State): ListQuery
    requires Paged(st)
  {
    RequestReflectsState(st);
    ReadQuery(QueryParams(st))
  }

  /** A selection constrains unless it is "all". */
  function Selection(v: string): Option<string> {
    if v == "all" then None else Some(v)
  }

  lemma RequestShape(st: State)
    requires Paged(st)
    ensures Request(st) == ListQuery(Selection(st.topic), Selection(st.quizType), Some(st.page), Some(st.limit))
  {
    RequestReflectsState(st);
  }

  /** Next is enabled exactly when the page after the current one holds at
      least one attempt. */
  lemma NextEnabledIffMore(store: Store, owner: UserId, st: State)
    requires Paged(st)
    ensures List(store, owner, Request(st)).Ok?
    ensures var next := Step(st, NextClicked);
            List(store, owner, Request(next)).Ok?
            && (!NextDisabled(st, List(store, owner, Request(st)).value.total)
                <==> |List(store, owner, Request(next)).value.items| > 0)
  {
    var next := st.(page := st.page + 1);
    assert Step(st, NextClicked) == next;
    RequestShape(st);
    RequestShape(next);
    NextOfShape(store, owner, st, Request(st), Request(next));
  }

  lemma NextOfShape(store: Store, owner: UserId, st: State, q: ListQuery, q': ListQuery)
    requires Paged(st)
    requires q == ListQuery(Selection(st.topic), Selection(st.quizType), Some(st.page), Some(st.limit))
    requires q' == ListQuery(Selection(st.topic), Selection(st.quizType), Some(st.page + 1), Some(st.limit))
    ensures List(store, owner, q).Ok? && List(store, owner, q').Ok?
    ensures !NextDisabled(st, List(store, owner, q).value.total) <==> |List(store, owner, q').value.items| > 0
  {
    assert q' == q.(page := Some(st.page + 1));
    NextPageNonEmpty(store, owner, q, st.page, st.limit);
  }

  // ------------------------------------------------------------ summary card

  /** `byTopic[0]?.topic || "-"`. */
  function TopTopic(byTopic: seq<TopicStat>): (r: string)
    ensures |byTopic| == 0 ==> r == "-"
    ensures |byTopic| > 0 && byTopic[0].topic != "" ==> r == byTopic[0].topic
    ensures |byTopic| > 0 && byTopic[0].topic == "" ==> r == "-"
  {
    if |byTopic| > 0 && byTopic[0].topic != "" then byTopic[0].topic else "-"
  }

  /** The top-topic card names a topic the caller attempted at least as
      often as any other, unless it shows "-". */
  lemma TopTopicIsMostAttempted(store: Store, owner: UserId, now: Millis, t: string)
    requires Summarizable(store, owner)
    requires HasTopicIn(Owned(store, owner), t)
    ensures var top := Summarize(store, owner, now).value.byTopic[0].topic;
            && HasTopicIn(Owned(store, owner), top)
            && |Group(Owned(store, owner), t)| <= |Group(Owned(store, owner), top)|
    ensures var shown := TopTopic(Summarize(store, owner, now).value.byTopic);
            shown != "-" ==> && HasTopicIn(Owned(store, owner), shown)
                             && |Group(Owned(store, owner), t)| <= |Group(Owned(store, owner), shown)|
  {
    var owned := Owned(store, owner);
    var b := Summarize(store, owner, now).value.byTopic;
    var i :| 0 <= i < |b| && b[i].topic == t;
    assert b[i].attempts <= b[0].attempts;
  }
}

=== FILE: item_extraction.dfy ===
/** `buildItemsFromForm` of public/js/attempts-client.js: how a quiz page's
    radio buttons become the `items` of an attempt. The DOM is abstracted to
    the few facts the function reads: the question cards with their heading
    and radios, and every radio of the form with its name, value, label text
    and checked state. */
module ItemExtraction {
  import opened Responses
  import opened Seqs
  import opened Decimal
  import opened QuizAttempt

  /** An `<input type="radio">`; `labelText` is the trimmed text of the enclosing
      `<label>`, absent when the radio is not inside one. */
  datatype Radio = Radio(name: string, value: string, labelText: Option<string>, checked: bool)

  /** A question card: the text of its `<h3>` (with any "Question N:" prefix
      already removed) and the radios inside it, in document order. */
  datatype Block = Block(heading: Option<string>, radios: seq<Radio>)

  /** The quiz form: its cards, and — used when it has no cards — its own
      first heading; `radios` are all radios of the form in document order. */
  datatype Form = Form(cards: seq<Block>, heading: Option<string>, radios: seq<Radio>)

  /** With no cards the whole form is read as one question. */
  function QuestionBlocks(form: Form): (r: seq<Block>)
    ensures |form.cards| > 0 ==> r == form.cards
    ensures |form.cards| == 0 ==> r == [Block(form.heading, form.radios)]
  {
    if |form.cards| > 0 then form.cards else [Block(form.heading, form.radios)]
  }

  function HasRadios(b: Block): bool {
    |b.radios| > 0
  }

  /** The blocks that have radios, in document order: the questions. */
  function Answerable(blocks: seq<Block>): (r: seq<Block>)
    ensures |r| <= |blocks|
    ensures forall i :: 0 <= i < |r| ==> HasRadios(r[i])
  {
    if |blocks| == 0 then []
    else (if HasRadios(blocks[0]) then [blocks[0]] else []) + Answerable(blocks[1..])
  }

  function NameIs(name: string): Radio -> bool {
    (r: Radio) => r.name == name
  }

  function CheckedIn(name: string): Radio -> bool {
    (r: Radio) => r.name == name && r.checked
  }

  function MarkedCorrect(r: Radio): bool {
    r.value == "true"
  }

  /** The radios of the whole form sharing `name`. */
  function GroupOf(form: Form, name: string): (g: seq<Radio>)
    ensures forall i :: 0 <= i < |g| ==> g[i].name == name && g[i] in form.radios
    ensures forall r :: r in form.radios && r.name == name ==> r in g
  {
    Filter(form.radios, NameIs(name))
  }

  /** A choice is shown by its label text, or by its value outside a label. */
  function ChoiceText(r: Radio): string {
    if r.labelText.Some? then r.labelText.value else r.value
  }

  function Choices(g: seq<Radio>): (r: seq<string>)
    ensures |r| == |g|
    ensures forall i :: 0 <= i < |g| ==> r[i] == ChoiceText(g[i])
  {
    if |g| == 0 then [] else Choices(g[..|g| - 1]) + [ChoiceText(g[|g| - 1])]
  }

  /** The user's answer falls back to the value when the label is missing or
      empty. */
  function AnswerText(r: Radio): string {
    if r.labelText.Some? && r.labelText.value != "" then r.labelText.value else r.value
  }

  /** The correct answer falls back to the literal "true" likewise. */
  function CorrectText(r: Radio): string {
    if r.labelText.Some? && r.labelText.value != "" then r.labelText.value else "true"
  }

  /** `!!(userAnswer && correctAnswer && userAnswer === correctAnswer)`: both
      present, both non-empty, and equal. */
  function Graded(userAnswer: Option<string>, correctAnswer: Option<string>): bool {
    userAnswer.Some? && userAnswer.value != ""
    && correctAnswer.Some? && correctAnswer.value != ""
    && userAnswer.value == correctAnswer.value
  }

  /** The item of one block, given how many items were pushed before it;
      nothing for a block without radios. The group is found by the first
      radio's name across the whole form. */
  function ItemFor(form: Form, b: Block, before: nat): (r: Option<ItemInput>)
    ensures r.Some? <==> |b.radios| > 0
  {
    if |b.radios| == 0 then None
    else
      var name := b.radios[0].name;
      var group := GroupOf(form, name);
      var chosen := FindFirst(form.radios, CheckedIn(name));
      var correct := FindFirst(group, MarkedCorrect);
      var userAnswer := if chosen.Some? then Some(AnswerText(chosen.value)) else None;
      var correctAnswer := if correct.Some? then Some(CorrectText(correct.value)) else None;
      var text := if b.heading.Some? then b.heading.value else "Q" + Show(before + 1);
      Some(ItemInput(Some(Show(before + 1)), Some(text), Choices(group), correctAnswer,
                     userAnswer, Some(Graded(userAnswer, correctAnswer)), None, None))
  }

  /** What the item of a block with radios holds: its number, its text
      (the heading, or "Q" and its number), the texts of the whole group,
      the user's answer exactly when some radio of the group is checked, the
      correct answer exactly when some radio of the group has value "true",
      and the grade of the two. */
  lemma ItemContents(form: Form, b: Block, before: nat)
    requires |b.radios| > 0
    ensures var r := ItemFor(form, b, before);
      var name := b.radios[0].name;
      var group := GroupOf(form, name);
      var chosen := FindFirst(form.radios, CheckedIn(name));
      var correct := FindFirst(group, MarkedCorrect);
      && r.value.questionId == Some(Show(before + 1))
      && r.value.questionText == Some(if b.heading.Some? then b.heading.value else "Q" + Show(before + 1))
      && r.value.choices == Choices(group)
      && (r.value.userAnswer.Some? <==> exists i :: 0 <= i < |form.radios| && form.radios[i].name == name && form.radios[i].checked)
      && (r.value.userAnswer.Some? ==> r.value.userAnswer.value == AnswerText(chosen.value))
      && (r.value.correctAnswer.Some? <==> exists i :: 0 <= i < |group| && group[i].value == "true")
      && (r.value.correctAnswer.Some? ==> r.value.correctAnswer.value == CorrectText(correct.value))
      && r.value.isCorrect == Some(Graded(r.value.userAnswer, r.value.correctAnswer))
      && r.value.difficulty.None? && r.value.explanation.None?
  {
  }

  /** The `forEach` over the blocks, with `done` items already pushed: one
      item per block that has radios. */
  function ItemsFrom(form: Form, blocks: seq<Block>, done: nat): (r: seq<ItemInput>)
    ensures |r| == |Answerable(blocks)|
    decreases |blocks|
  {
    if |blocks| == 0 then []
    else
      var rest := ItemsFrom(form, blocks[1..], if HasRadios(blocks[0]) then done + 1 else done);
      if HasRadios(blocks[0]) then [ItemFor(form, blocks[0], done).value] + rest else rest
  }

  /** The i-th item is the item of the i-th block that has radios, numbered
      `done + i + 1`. */
  ghost predicate NumberedFrom(form: Form, blocks: seq<Block>, done: nat) {
    var r, qs := ItemsFrom(form, blocks, done), Answerable(blocks);
    |r| == |qs| && forall i :: 0 <= i < |r| ==> Some(r[i]) == ItemFor(form, qs[i], done + i)
  }

  lemma {:induction false} ItemsFromBlocks(form: Form, blocks: seq<Block>, done: nat)
    ensures NumberedFrom(form, blocks, done)
    decreases |blocks|
  {
    if |blocks| > 0 {
      var next := if HasRadios(blocks[0]) then done + 1 else done;
      ItemsFromBlocks(form, blocks[1..], next);
      if HasRadios(blocks[0]) {
        PushStep(form, blocks, done);
      } else {
        SkipStep(form, blocks, done);
      }
    }
  }

  lemma SkipStep(form: Form, blocks: seq<Block>, done: nat)
    requires |blocks| > 0 && !HasRadios(blocks[0])
    requires NumberedFrom(form, blocks[1..], done)
    ensures NumberedFrom(form, blocks, done)
  {
    assert ItemsFrom(form, blocks, done) == ItemsFrom(form, blocks[1..], done);
    assert Answerable(blocks) == Answerable(blocks[1..]);
  }

  lemma PushStep(form: Form, blocks: seq<Block>, done: nat)
    requires |blocks| > 0 && HasRadios(blocks[0])
    requires NumberedFrom(form, blocks[1..], done + 1)
    ensures NumberedFrom(form, blocks, done)
  {
    var b := blocks[0];
    var r := ItemsFrom(form, blocks, done);
    var rest := ItemsFrom(form, blocks[1..], done + 1);
    var fs, ft := Answerable(blocks), Answerable(blocks[1..]);
    assert r == [ItemFor(form, b, done).value] + rest;
    assert fs == [b] + ft;
    forall i | 0 <= i < |r|
      ensures Some(r[i]) == ItemFor(form, fs[i], done + i)
    {
      if i > 0 {
        assert r[i] == rest[i - 1];
        assert fs[i] == ft[i - 1];
        assert Some(rest[i - 1]) == ItemFor(form, ft[i - 1], done + 1 + (i - 1));
      }
    }
  }

  /** `buildItemsFromForm(form)`: the i-th item is the item of the i-th
      question block that has radios, with question number i + 1. */
  function BuildItems(form: Form): (r: seq<ItemInput>)
    ensures |r| == |Answerable(QuestionBlocks(form))| <= |QuestionBlocks(form)|
    ensures forall i :: 0 <= i < |r| ==> Some(r[i]) == ItemFor(form, Answerable(QuestionBlocks(form))[i], i)
  {
    ItemsFromBlocks(form, QuestionBlocks(form), 0);
    ItemsFrom(form, QuestionBlocks(form), 0)
  }

  /** Items are numbered 1, 2, 3, … in order, skipping blocks without radios
      without leaving gaps. */
  lemma ItemsNumberedConsecutively(form: Form)
    ensures forall i :: 0 <= i < |BuildItems(form)| ==> BuildItems(form)[i].questionId == Some(Show(i + 1))
  {
    var items := BuildItems(form);
    var bs := Answerable(QuestionBlocks(form));
    ItemsFromBlocks(form, QuestionBlocks(form), 0);
    forall i | 0 <= i < |items|
      ensures items[i].questionId == Some(Show(i + 1))
    {
      assert Some(items[i]) == ItemFor(form, bs[i], i);
    }
  }

  /** A form without cards yields one item if it has any radio and none
      otherwise. */
  lemma NoCardsOneQuestion(form: Form)
    requires |form.cards| == 0
    ensures |BuildItems(form)| == (if |form.radios| > 0 then 1 else 0)
  {
    var b := Block(form.heading, form.radios);
    assert [b][1..] == [];
  }

  /** Choosing the radio marked correct — the first one with value "true" in
      its group — always grades the question correct, whatever its label. */
  lemma ChoosingCorrectScores(form: Form, b: Block, before: nat)
    requires |b.radios| > 0
    requires var name := b.radios[0].name;
             var chosen := FindFirst(form.radios, CheckedIn(name));
             chosen.Some? && chosen == FindFirst(GroupOf(form, name), MarkedCorrect)
    ensures ItemFor(form, b, before).value.isCorrect == Some(true)
  {
    var name := b.radios[0].name;
    var chosen := FindFirst(form.radios, CheckedIn(name));
    assert chosen.value in form.radios;
    var k :| 0 <= k < |form.radios| && form.radios[k] == chosen.value;
    var g := GroupOf(form, name);
    assert exists i :: 0 <= i < |g| && g[i].value == "true" by {
      assert chosen.value in g;
    }
  }

  /** With nothing checked in its group a question is never graded correct. */
  lemma UnansweredIsWrong(form: Form, b: Block, before: nat)
    requires |b.radios| > 0
    requires forall i :: 0 <= i < |form.radios| && form.radios[i].name == b.radios[0].name ==> !form.radios[i].checked
    ensures ItemFor(form, b, before).value.userAnswer.None?
    ensures ItemFor(form, b, before).value.isCorrect == Some(false)
  {
  }

  /** The items the page builds always pass the schema's cast: each gets the
      default difficulty "medium" and keeps everything else it was built with. */
  lemma BuiltItemsAreSaved(form: Form)
    ensures var saved := ItemsFromInput(BuildItems(form));
            && saved.Some?
            && |saved.value| == |BuildItems(form)|
            && (forall i :: 0 <= i < |saved.value| ==>
                  && saved.value[i].difficulty == Medium
                  && saved.value[i].questionId == BuildItems(form)[i].questionId
                  && saved.value[i].isCorrect.Some?)
  {
    var items := BuildItems(form);
    var bs := Answerable(QuestionBlocks(form));
    ItemsFromBlocks(form, QuestionBlocks(form), 0);
    forall i | 0 <= i < |items|
      ensures items[i].difficulty.None? && items[i].isCorrect.Some?
    {
      assert Some(items[i]) == ItemFor(form, bs[i], i);
    }
  }
}

=== FILE: quiz_attempt.dfy ===
/** The quiz-attempt document (backend/models/QuizAttempt.js): the embedded
    per-question item, the two enumerations with their defaults, and the
    `percent` value derived on read from score and total. */
module QuizAttempt {
  import opened Responses

  /** Mongo ObjectIds of attempts, abstracted to natural numbers. */
  type AttemptId = nat

  /** A point in time, in milliseconds since the epoch (`Date.now()`). */
  type Millis = int

  datatype Difficulty = Easy | Medium | Hard
  datatype QuizType = TopicQuiz | RandomQuiz

  const DefaultDifficulty: Difficulty := Medium
  const DefaultQuizType: QuizType := TopicQuiz
  const DefaultTopic: string := "random"
  const DefaultDuration: int := 0

  function DifficultyName(d: Difficulty): string {
    match d
    case Easy => "easy"
    case Medium => "medium"
    case Hard => "hard"
  }

  function QuizTypeName(t: QuizType): string {
    match t
    case TopicQuiz => "topic"
    case RandomQuiz => "random"
  }

  /** The schema's enum check on `difficulty`: exactly the three names are
      accepted, each meaning its own level. */
  function ParseDifficulty(s: string): (r: Option<Difficulty>)
    ensures r.Some? <==> s in {"easy", "medium", "hard"}
    ensures r.Some? ==> DifficultyName(r.value) == s
  {
    if s == "easy" then Some(Easy)
    else if s == "medium" then Some(Medium)
    else if s == "hard" then Some(Hard)
    else None
  }

  /** The schema's enum check on `quizType`: exactly "topic" and "random". */
  function ParseQuizType(s: string): (r: Option<QuizType>)
    ensures r.Some? <==> s in {"topic", "random"}
    ensures r.Some? ==> QuizTypeName(r.value) == s
  {
    if s == "topic" then Some(TopicQuiz)
    else if s == "random" then Some(RandomQuiz)
    else None
  }

  /** Every level's stored name passes the enum check as that level. */
  lemma DifficultyNameRoundTrip(d: Difficulty)
    ensures ParseDifficulty(DifficultyName(d)) == Some(d)
  {
  }

  /** Every quiz type's stored name passes the enum check as that type. */
  lemma QuizTypeNameRoundTrip(t: QuizType)
    ensures ParseQuizType(QuizTypeName(t)) == Some(t)
  {
  }

  /** One answered question, embedded in its attempt (no identity of its own). */
  datatype Item = Item(
    questionId: Option<string>,
    questionText: Option<string>,
    choices: seq<string>,
    correctAnswer: Option<string>,
    userAnswer: Option<string>,
    isCorrect: Option<bool>,
    difficulty: Difficulty,
    explanation: Option<string>)

  /** An item as a client sends it, before defaults and enum validation. */
  datatype ItemInput = ItemInput(
    questionId: Option<string>,
    questionText: Option<string>,
    choices: seq<string>,
    correctAnswer: Option<string>,
    userAnswer: Option<string>,
    isCorrect: Option<bool>,
    difficulty: Option<string>,
    explanation: Option<string>)

  /** Casting an input item into the item schema: a missing difficulty
      becomes "medium", an unknown one fails validation, and every other
      field is kept as sent. */
  function ItemFromInput(i: ItemInput): (r: Option<Item>)
    ensures r.Some? <==> i.difficulty.None? || i.difficulty.value in {"easy", "medium", "hard"}
    ensures r.Some? && i.difficulty.None? ==> r.value.difficulty == DefaultDifficulty
    ensures r.Some? && i.difficulty.Some? ==> DifficultyName(r.value.difficulty) == i.difficulty.value
    ensures r.Some? ==> && r.value.questionId == i.questionId
                        && r.value.questionText == i.questionText
                        && r.value.choices == i.choices
                        && r.value.correctAnswer == i.correctAnswer
                        && r.value.userAnswer == i.userAnswer
                        && r.value.isCorrect == i.isCorrect
                        && r.value.explanation == i.explanation
  {
    var d := if i.difficulty.None? then Some(DefaultDifficulty) else ParseDifficulty(i.difficulty.value);
    if d.None? then None
    else Some(Item(i.questionId, i.questionText, i.choices, i.correctAnswer,
                   i.userAnswer, i.isCorrect, d.value, i.explanation))
  }

  /** Casting a whole `items` array: it validates iff every element does, and
      then keeps length and order. */
  function ItemsFromInput(s: seq<ItemInput>): (r: Option<seq<Item>>)
    ensures r.Some? <==> forall i :: 0 <= i < |s| ==> ItemFromInput(s[i]).Some?
    ensures r.Some? ==> |r.value| == |s|
                        && forall i :: 0 <= i < |s| ==> ItemFromInput(s[i]) == Some(r.value[i])
  {
    if |s| == 0 then Some([])
    else
      var first := ItemFromInput(s[0]);
      var rest := ItemsFromInput(s[1..]);
      if first.None? || rest.None? then
        assert first.None? ==> !ItemFromInput(s[0]).Some?;
        assert rest.None? ==> exists i :: 1 <= i < |s| && !ItemFromInput(s[i]).Some? by {
          if rest.None? {
            var k :| 0 <= k < |s[1..]| && !ItemFromInput(s[1..][k]).Some?;
            assert s[k + 1] == s[1..][k];
          }
        }
        None
      else
        Some([first.value] + rest.value)
  }

  /** A stored attempt. `percent` is deliberately not a field: it is derived
      from `score` and `total` by `Percent`. */
  datatype Attempt = Attempt(
    id: AttemptId,
    userId: UserId,
    topic: string,
    quizType: QuizType,
    score: int,
    total: int,
    durationSec: int,
    startedAt: Option<Millis>,
    completedAt: Millis,
    items: seq<Item>)

  /** `Math.round(x)`: the nearest integer, halves rounded up. */
  function RoundHalfUp(x: real): (r: int)
    ensures r as real - 0.5 <= x < r as real + 0.5
  {
    (x + 0.5).Floor
  }

  /** Only one integer lies within half of `x`, so `RoundHalfUp` is the
      rounding and not merely a rounding. */
  lemma RoundHalfUpUnique(x: real, n: int)
    requires n as real - 0.5 <= x < n as real + 0.5
    ensures RoundHalfUp(x) == n
  {
  }

  /** `score / total * 100` computed exactly. */
  function Ratio(score: int, total: int): real
    requires total != 0
  {
    score as real / total as real * 100.0
  }

  /** The `percent` virtual: the rounded percentage when total is positive,
      otherwise 0. For a positive total it is the integer `p` with
      p - 1/2 <= 100 * score / total < p + 1/2, stated without division. */
  function Percent(score: int, total: int): (p: int)
    ensures total <= 0 ==> p == 0
    ensures total > 0 ==> (2 * p - 1) * total <= 200 * score < (2 * p + 1) * total
  {
    if total > 0 then
      var p := RoundHalfUp(Ratio(score, total));
      PercentBounds(score, total, p);
      p
    else 0
  }

  lemma PercentBounds(score: int, total: int, p: int)
    requires total > 0
    requires p as real - 0.5 <= Ratio(score, total) < p as real + 0.5
    ensures (2 * p - 1) * total <= 200 * score < (2 * p + 1) * total
  {
    var t := total as real;
    var y := Ratio(score, total);
    assert y * t == 100.0 * score as real by {
      assert score as real / t * t == score as real;
    }
    MulMono(2.0 * p as real - 1.0, 2.0 * y, t);
    MulStrict(2.0 * y, 2.0 * p as real + 1.0, t);
    assert ((2 * p - 1) * total) as real == (2.0 * p as real - 1.0) * t;
    assert ((2 * p + 1) * total) as real == (2.0 * p as real + 1.0) * t;
    assert (200 * score) as real == 2.0 * y * t;
    assert (200 * score) as real < ((2 * p + 1) * total) as real;
  }

  lemma MulMono(a: real, b: real, c: real)
    requires a <= b && c > 0.0
    ensures a * c <= b * c
  {
  }

  lemma MulStrict(a: real, b: real, c: real)
    requires a < b && c > 0.0
    ensures a * c < b * c
  {
  }

  /** A score between 0 and a positive total gives a percent between 0 and
      100. */
  lemma PercentRange(score: int, total: int)
    requires 0 <= score <= total && total > 0
    ensures 0 <= Percent(score, total) <= 100
  {
    var p := Percent(score, total);
    MulLe(0, score, 200);
    MulCancelLt(0, 2 * p + 1, total);
    MulLe(score, total, 200);
    MulCancelLe(2 * p - 1, 200, total);
  }

  lemma MulCancelLt(a: int, b: int, c: int)
    requires c > 0 && a * c < b * c
    ensures a < b
  {
  }

  lemma MulCancelLe(a: int, b: int, c: int)
    requires c > 0 && a * c <= b * c
    ensures a <= b
  {
  }

  /** The bounds of `Percent` pin it down: it is the only integer within half
      a percent of the exact ratio. */
  lemma PercentUnique(score: int, total: int, p: int)
    requires total > 0
    requires (2 * p - 1) * total <= 200 * score < (2 * p + 1) * total
    ensures Percent(score, total) == p
  {
    var q := Percent(score, total);
    if q < p {
      MulLe(2 * q + 1, 2 * p - 1, total);
    } else if q > p {
      MulLe(2 * p + 1, 2 * q - 1, total);
    }
  }

  lemma MulLe(a: int, b: int, c: int)
    requires a <= b && c > 0
    ensures a * c <= b * c
  {
  }
}

=== FILE: responses.dfy ===
/** Values exchanged with callers: optional request fields, JSON scalars as
    they arrive in a request body, and the error taxonomy of the HTTP
    handlers (400 / 404 / 500), represented as data instead of status codes. */
module Responses {

  /** An optional value. For a request field, `None` is an absent key; a
      JSON `null` is folded into it as well (see README, "Left out"). */
  datatype Option<+T> = None | Some(value: T)

  /** `const { field = d } = body`: the given value, or `d` when the key is
      absent. */
  function Defaulted<T>(v: Option<T>, d: T): (r: T)
    ensures v.None? ==> r == d
    ensures v.Some? ==> r == v.value
  {
    if v.Some? then v.value else d
  }

  /** Mongo ObjectIds of users, abstracted to natural numbers. */
  type UserId = nat

  /** A scalar of a JSON request body. Only whole numbers are modelled. */
  datatype Json = JNum(n: int) | JStr(s: string) | JBool(b: bool) | JNull

  /** `typeof v === "number"` for a body field that may be absent. */
  predicate IsNumber(v: Option<Json>) {
    v.Some? && v.value.JNum?
  }

  /** JavaScript truthiness of an optional string field (`undefined`, `null`
      and `""` are falsy). */
  predicate Truthy(v: Option<string>) {
    v.Some? && v.value != ""
  }

  /** Why a request was refused. */
  datatype Reason =
    | ScoreAndTotalRequired   // attempt body without numeric score/total
    | InvalidScoreFormat      // pretest body with a non-numeric score
    | CredentialsRequired     // signup without email or password
    | EmailTaken              // signup with a registered email
    | EnumViolation           // schema enum validation failed on save
    | RequiredFieldMissing    // schema `required` validation failed on save
    | DivideByZero            // aggregation divided a score by a zero total
    | NegativeSkip            // the store refuses a negative skip offset
    | UpdateTargetMissing     // update of a user that does not exist

  /** 400, 404 and 500 responses respectively. */
  datatype Error = BadRequest(why: Reason) | NotFound | ServerError(why: Reason)

  datatype Result<+T> = Ok(value: T) | Err(error: Error)
}

=== FILE: seqs.dfy ===
/** Sequence utilities shared by the store, the aggregation and the client
    code: filtering, first-match search, keyed sums, and an insertion sort
    into descending key order. */
module Seqs {
  import opened Responses

  /** The elements of `s` satisfying `p`, in their original order. Defined on
      the last element so that appending to `s` unfolds in one step. */
  function Filter<T>(s: seq<T>, p: T -> bool): (r: seq<T>)
    ensures |r| <= |s|
    ensures forall i :: 0 <= i < |r| ==> p(r[i]) && r[i] in s
    ensures forall x :: x in s && p(x) ==> x in r
  {
    if |s| == 0 then []
    else
      var init := Filter(s[..|s| - 1], p);
      assert forall x :: x in s ==> x in s[..|s| - 1] || x == s[|s| - 1];
      if p(s[|s| - 1]) then init + [s[|s| - 1]] else init
  }

  lemma {:induction false} FilterAppend<T>(s: seq<T>, x: T, p: T -> bool)
    ensures Filter(s + [x], p) == if p(x) then Filter(s, p) + [x] else Filter(s, p)
  {
    assert (s + [x])[..|s + [x]| - 1] == s;
  }

  /** Filtering keeps every passing element as often as it occurs and drops
      the rest; with `FilterAppend`, which fixes the order, this pins the
      result down completely. */
  lemma {:induction false} FilterCounts<T>(s: seq<T>, p: T -> bool)
    ensures multiset(Filter(s, p)) <= multiset(s)
    ensures forall x :: x in multiset(s) ==> multiset(Filter(s, p))[x] == if p(x) then multiset(s)[x] else 0
  {
    if |s| > 0 {
      var init, last := s[..|s| - 1], s[|s| - 1];
      assert s == init + [last];
      FilterAppend(init, last, p);
      FilterCounts(init, p);
    }
  }

  /** Nothing passes a predicate no element satisfies. */
  lemma {:induction false} FilterNone<T>(s: seq<T>, p: T -> bool)
    requires forall i :: 0 <= i < |s| ==> !p(s[i])
    ensures Filter(s, p) == []
  {
    if |s| > 0 {
      FilterNone(s[..|s| - 1], p);
    }
  }

  /** The position of the first element of `s` satisfying `p`, or `|s|`
      when there is none. */
  function FirstIndex<T>(s: seq<T>, p: T -> bool): (i: nat)
    ensures i <= |s|
    ensures forall j :: 0 <= j < i ==> !p(s[j])
    ensures i < |s| ==> p(s[i])
  {
    if |s| == 0 then 0
    else if p(s[0]) then 0
    else 1 + FirstIndex(s[1..], p)
  }

  /** The first element of `s` satisfying `p`, if any (`Array.prototype.find`). */
  function FindFirst<T>(s: seq<T>, p: T -> bool): (r: Option<T>)
    ensures r.None? <==> forall i :: 0 <= i < |s| ==> !p(s[i])
    ensures r.Some? ==> p(r.value) && r.value == s[FirstIndex(s, p)]
  {
    var i := FirstIndex(s, p);
    if i < |s| then Some(s[i]) else None
  }

  /** The sum of `key` over the elements of `s`. */
  function SumBy<T>(s: seq<T>, key: T -> int): int {
    if |s| == 0 then 0 else key(s[0]) + SumBy(s[1..], key)
  }

  /** Every element's key is at least that of every later element. */
  ghost predicate SortedDesc<T>(s: seq<T>, key: T -> int) {
    forall i, j :: 0 <= i < j < |s| ==> key(s[i]) >= key(s[j])
  }

  /** Inserts `x` into a descending sequence, before every element whose key
      equals its own. */
  function Insert<T>(x: T, s: seq<T>, key: T -> int): (r: seq<T>)
    requires SortedDesc(s, key)
    ensures SortedDesc(r, key)
    ensures multiset(r) == multiset(s) + multiset{x}
    ensures SumBy(r, key) == key(x) + SumBy(s, key)
  {
    if |s| == 0 || key(x) >= key(s[0]) then
      ConsSumBy(x, s, key);
      forall j | 0 <= j < |s| ensures key(s[j]) <= key(x) {
        HeadDominates(s, key, s[j]);
      }
      ConsSorted(x, s, key);
      [x] + s
    else
      var rest := Insert(x, s[1..], key);
      assert s == [s[0]] + s[1..];
      ConsSumBy(s[0], rest, key);
      ConsSumBy(s[0], s[1..], key);
      forall j | 0 <= j < |rest| ensures key(rest[j]) <= key(s[0]) {
        InsertBounded(x, s, key, rest, j);
      }
      ConsSorted(s[0], rest, key);
      [s[0]] + rest
  }

  lemma ConsSumBy<T>(a: T, s: seq<T>, key: T -> int)
    ensures SumBy([a] + s, key) == key(a) + SumBy(s, key)
  {
    assert ([a] + s)[1..] == s;
  }

  /** A descending sequence stays descending under a head that keys at
      least as high as each of its elements. */
  lemma ConsSorted<T>(a: T, s: seq<T>, key: T -> int)
    requires SortedDesc(s, key)
    requires forall j :: 0 <= j < |s| ==> key(s[j]) <= key(a)
    ensures SortedDesc([a] + s, key)
  {
    var r := [a] + s;
    forall i, j | 0 <= i < j < |r|
      ensures key(r[i]) >= key(r[j])
    {
      assert r[j] == s[j - 1];
      if i > 0 {
        assert r[i] == s[i - 1];
      }
    }
  }

  /** What `Insert` puts after the head of `s` keys no higher than it. */
  lemma InsertBounded<T>(x: T, s: seq<T>, key: T -> int, rest: seq<T>, j: nat)
    requires |s| > 0 && SortedDesc(s, key) && key(x) < key(s[0])
    requires multiset(rest) == multiset(s[1..]) + multiset{x}
    requires j < |rest|
    ensures key(rest[j]) <= key(s[0])
  {
    assert rest[j] in multiset(rest);
    if rest[j] != x {
      assert rest[j] in s[1..];
      HeadDominates(s[1..], key, rest[j]);
      assert key(s[1]) <= key(s[0]);
    }
  }

  /** In a descending sequence no element's key exceeds the first one's. */
  lemma HeadDominates<T>(s: seq<T>, key: T -> int, y: T)
    requires SortedDesc(s, key) && y in s
    ensures key(y) <= key(s[0])
  {
    var i :| 0 <= i < |s| && s[i] == y;
  }

  /** Insertion sort into descending key order. The construction puts the
      earlier of two equally keyed elements first, but no contract states
      how ties are ordered. */
  function SortDesc<T>(s: seq<T>, key: T -> int): (r: seq<T>)
    ensures SortedDesc(r, key)
    ensures multiset(r) == multiset(s)
    ensures |r| == |s|
    ensures SumBy(r, key) == SumBy(s, key)
  {
    if |s| == 0 then []
    else
      assert s == [s[0]] + s[1..];
      var r := Insert(s[0], SortDesc(s[1..], key), key);
      assert |r| == |multiset(r)|;
      r
  }
}

=== FILE: users.dfy ===
/** The user document (backend/models/User.js) and the three user handlers
    of backend/server.js modelled here: signup, saving pretest scores, and
    the pretest weakness analysis. The users collection is a sequence in
    insertion order; a user's id is its position. Password hashing is a
    foreign call: its result is passed in. */
module Users {
  import opened Responses
  import opened Seqs

  datatype PretestScores = PretestScores(
    grammar: int,
    vocab: int,
    reading: int,
    writing: int,
    total: int,
    analyzedWeaknesses: seq<string>)

  /** The schema defaults of a fresh user's pretest scores. */
  const DefaultPretest: PretestScores := PretestScores(0, 0, 0, 0, 0, [])

  /** `pretestScores` is `None` only for documents written without it. */
  datatype User = User(email: string, password: string, pretestScores: Option<PretestScores>)

  type UserStore = seq<User>

  predicate EmailRegistered(users: UserStore, email: string) {
    exists i :: 0 <= i < |users| && users[i].email == email
  }

  /** What the schema guarantees of every stored user: `required` email and
      password (a required string must not be empty), and `unique` email. */
  ghost predicate ValidUsers(users: UserStore) {
    && (forall i :: 0 <= i < |users| ==> users[i].email != "" && users[i].password != "")
    && (forall i, j :: 0 <= i < j < |users| ==> users[i].email != users[j].email)
  }

  /** `new User({ email, password }).save()`: schema validation, then the
      unique index on email; on success the user is appended with the
      default pretest scores. */
  function Save(users: UserStore, email: string, password: string): (r: Result<(UserStore, UserId)>)
    ensures r.Ok? <==> email != "" && password != "" && !EmailRegistered(users, email)
    ensures r.Ok? ==> r.value.1 == |users|
                      && r.value.0 == users + [User(email, password, Some(DefaultPretest))]
    ensures r.Ok? && ValidUsers(users) ==> ValidUsers(r.value.0)
  {
    if email == "" || password == "" then Err(ServerError(RequiredFieldMissing))
    else if EmailRegistered(users, email) then Err(ServerError(EmailTaken))
    else Ok((users + [User(email, password, Some(DefaultPretest))], |users|))
  }

  /** `POST /api/signup`. A missing or empty email or password is refused
      before the store is consulted; a registered email is refused; otherwise
      the user is saved with `hashed`, the bcrypt hash of the password. The
      token issued afterwards is not modelled. */
  function Signup(users: UserStore, email: Option<string>, password: Option<string>, hashed: string)
    : (r: Result<(UserStore, UserId)>)
    ensures !Truthy(email) || !Truthy(password) <==> r == Err(BadRequest(CredentialsRequired))
    ensures Truthy(email) && Truthy(password) && EmailRegistered(users, email.value)
            <==> r == Err(BadRequest(EmailTaken))
    ensures r.Ok? <==> Truthy(email) && Truthy(password) && !EmailRegistered(users, email.value) && hashed != ""
    ensures r.Ok? ==> && r.value.1 == |users|
                      && r.value.0 == users + [User(email.value, hashed, Some(DefaultPretest))]
    ensures r.Ok? && ValidUsers(users) ==> ValidUsers(r.value.0)
  {
    if !Truthy(email) || !Truthy(password) then Err(BadRequest(CredentialsRequired))
    else if EmailRegistered(users, email.value) then Err(BadRequest(EmailTaken))
    else Save(users, email.value, hashed)
  }

  /** A signed-up user starts with all pretest scores 0 and no weaknesses. */
  lemma FreshUserDefaults(users: UserStore, email: Option<string>, password: Option<string>, hashed: string)
    requires Signup(users, email, password, hashed).Ok?
    ensures var (users', id) := Signup(users, email, password, hashed).value;
            && id < |users'|
            && users'[id].pretestScores.Some?
            && var p := users'[id].pretestScores.value;
               p.grammar == 0 && p.vocab == 0 && p.reading == 0 && p.writing == 0 && p.total == 0
               && p.analyzedWeaknesses == []
  {
  }

  /** Signing up twice with the same email succeeds at most once. */
  lemma SecondSignupRefused(users: UserStore, email: string, p1: string, p2: string, h1: string, h2: string)
    requires Signup(users, Some(email), Some(p1), h1).Ok?
    requires p2 != ""
    ensures var users' := Signup(users, Some(email), Some(p1), h1).value.0;
            Signup(users', Some(email), Some(p2), h2) == Err(BadRequest(EmailTaken))
  {
    var users' := Signup(users, Some(email), Some(p1), h1).value.0;
    assert users'[|users|].email == email;
  }

  // ------------------------------------------------------------ pretest

  datatype ScoreUpdate = ScoreUpdate(users: UserStore, scores: PretestScores)

  /** `POST /api/pretest-score` by user `id`. Any of the four scores not a
      number is a 400. Otherwise the four scores and their sum are set, the
      stored weaknesses and every other field and user are kept, and the
      updated scores are returned. Updating a user that no longer exists
      fails when the handler reads the result (a 500). */
  function SavePretest(users: UserStore, id: UserId,
                       grammar: Option<Json>, vocab: Option<Json>,
                       reading: Option<Json>, writing: Option<Json>): (r: Result<ScoreUpdate>)
    ensures !(IsNumber(grammar) && IsNumber(vocab) && IsNumber(reading) && IsNumber(writing))
            <==> r == Err(BadRequest(InvalidScoreFormat))
    ensures r.Ok? <==> IsNumber(grammar) && IsNumber(vocab) && IsNumber(reading) && IsNumber(writing)
                       && id < |users|
    ensures r.Err? && r.error != BadRequest(InvalidScoreFormat) ==> r.error == ServerError(UpdateTargetMissing)
    ensures r.Ok? ==> var p := r.value.scores;
                      && p.grammar == grammar.value.n && p.vocab == vocab.value.n
                      && p.reading == reading.value.n && p.writing == writing.value.n
                      && p.total == p.grammar + p.vocab + p.reading + p.writing
    ensures r.Ok? ==> && |r.value.users| == |users|
                      && r.value.users[id].email == users[id].email
                      && r.value.users[id].password == users[id].password
                      && r.value.users[id].pretestScores == Some(r.value.scores)
                      && (users[id].pretestScores.Some? ==>
                            r.value.scores.analyzedWeaknesses == users[id].pretestScores.value.analyzedWeaknesses)
                      && forall j :: 0 <= j < |users| && j != id ==> r.value.users[j] == users[j]
    ensures r.Ok? && ValidUsers(users) ==> ValidUsers(r.value.users)
  {
    if !(IsNumber(grammar) && IsNumber(vocab) && IsNumber(reading) && IsNumber(writing)) then
      Err(BadRequest(InvalidScoreFormat))
    else if id >= |users| then
      Err(ServerError(UpdateTargetMissing))
    else
      var g, v, rd, w := grammar.value.n, vocab.value.n, reading.value.n, writing.value.n;
      var prior := users[id].pretestScores;
      var kept := if prior.Some? then prior.value.analyzedWeaknesses else [];
      var scores := PretestScores(g, v, rd, w, g + v + rd + w, kept);
      Ok(ScoreUpdate(users[id := users[id].(pretestScores := Some(scores))], scores))
  }

  // ------------------------------------------------------------ analysis

  datatype Weakness = Weakness(topic: string, link: string)

  /** The four skills in the fixed order of the analysis, each with the
      score below which it counts as weak and the lesson it links to. */
  datatype Skill = Grammar | Vocabulary | Reading | Writing

  function SkillTopic(k: Skill): string {
    match k
    case Grammar => "Grammar"
    case Vocabulary => "Vocabulary"
    case Reading => "Reading"
    case Writing => "Writing"
  }

  function SkillLink(k: Skill): string {
    match k
    case Grammar => "/lessons/l-conditionals.html"
    case Vocabulary => "/lessons/lesson-m4.html"
    case Reading => "/lessons/lesson-m5.html"
    case Writing => "/lessons/l-passivevoice.html"
  }

  function Threshold(k: Skill): int {
    match k
    case Grammar => 11
    case Vocabulary => 9
    case Reading => 9
    case Writing => 8
  }

  function SkillScore(p: PretestScores, k: Skill): int {
    match k
    case Grammar => p.grammar
    case Vocabulary => p.vocab
    case Reading => p.reading
    case Writing => p.writing
  }

  function WeaknessOf(k: Skill): Weakness {
    Weakness(SkillTopic(k), SkillLink(k))
  }

  /** The weak skills of `p`, in the fixed order. */
  function Weaknesses(p: PretestScores): (r: seq<Weakness>)
    ensures forall k :: WeaknessOf(k) in r <==> SkillScore(p, k) < Threshold(k)
    ensures |r| <= 4
  {
    (if p.grammar < 11 then [WeaknessOf(Grammar)] else [])
    + (if p.vocab < 9 then [WeaknessOf(Vocabulary)] else [])
    + (if p.reading < 9 then [WeaknessOf(Reading)] else [])
    + (if p.writing < 8 then [WeaknessOf(Writing)] else [])
  }

  /** `GET /api/analyze-pretest` for user `id`: 404 without a user or without
      pretest scores, otherwise the weaknesses of the stored scores. */
  function Analyze(users: UserStore, id: UserId): (r: Result<seq<Weakness>>)
    ensures r.Err? <==> id >= |users| || users[id].pretestScores.None?
    ensures r.Err? ==> r.error == NotFound
    ensures r.Ok? ==> r.value == Weaknesses(users[id].pretestScores.value)
  {
    if id >= |users| || users[id].pretestScores.None? then Err(NotFound)
    else Ok(Weaknesses(users[id].pretestScores.value))
  }

  /** The skills in the order the analysis checks them. */
  const AllSkills: seq<Skill> := [Grammar, Vocabulary, Reading, Writing]

  function IsWeak(p: PretestScores): Skill -> bool {
    k => SkillScore(p, k) < Threshold(k)
  }

  function WeaknessesOf(ks: seq<Skill>): (r: seq<Weakness>)
    ensures |r| == |ks| && forall i :: 0 <= i < |ks| ==> r[i] == WeaknessOf(ks[i])
  {
    if |ks| == 0 then [] else [WeaknessOf(ks[0])] + WeaknessesOf(ks[1..])
  }

  function Keep(k: Skill, w: Skill -> bool): seq<Skill> {
    if w(k) then [k] else []
  }

  lemma FilterTwo(a: Skill, b: Skill, w: Skill -> bool)
    ensures Filter([a, b], w) == Keep(a, w) + Keep(b, w)
  {
    FilterAppend([], a, w);
    assert [] + [a] == [a];
    FilterAppend([a], b, w);
    assert [a] + [b] == [a, b];
  }

  lemma FilterThree(a: Skill, b: Skill, c: Skill, w: Skill -> bool)
    ensures Filter([a, b, c], w) == Keep(a, w) + Keep(b, w) + Keep(c, w)
  {
    FilterTwo(a, b, w);
    FilterAppend([a, b], c, w);
    assert [a, b] + [c] == [a, b, c];
  }

  lemma FilterFour(a: Skill, b: Skill, c: Skill, d: Skill, w: Skill -> bool)
    ensures Filter([a, b, c, d], w) == Keep(a, w) + Keep(b, w) + Keep(c, w) + Keep(d, w)
  {
    FilterThree(a, b, c, w);
    FilterAppend([a, b, c], d, w);
    assert [a, b, c] + [d] == [a, b, c, d];
  }

  lemma WeaknessesOfTable(p: PretestScores)
    ensures var w := IsWeak(p);
            WeaknessesOf(Keep(Grammar, w) + Keep(Vocabulary, w) + Keep(Reading, w) + Keep(Writing, w))
            == Weaknesses(p)
  {
    var w := IsWeak(p);
    var g, v, rd, wr := Keep(Grammar, w), Keep(Vocabulary, w), Keep(Reading, w), Keep(Writing, w);
    WeaknessesOfAppend(g + v + rd, wr);
    WeaknessesOfAppend(g + v, rd);
    WeaknessesOfAppend(g, v);
    KeepEntry(p, Grammar);
    KeepEntry(p, Vocabulary);
    KeepEntry(p, Reading);
    KeepEntry(p, Writing);
  }

  lemma KeepEntry(p: PretestScores, k: Skill)
    ensures WeaknessesOf(Keep(k, IsWeak(p))) == if SkillScore(p, k) < Threshold(k) then [WeaknessOf(k)] else []
  {
  }

  /** The analysis is the table of skills, in order, filtered by the
      threshold test: so weaknesses never repeat and always come in the order
      Grammar, Vocabulary, Reading, Writing. */
  lemma WeaknessesFollowTable(p: PretestScores)
    ensures Weaknesses(p) == WeaknessesOf(Filter(AllSkills, IsWeak(p)))
  {
    FilterFour(Grammar, Vocabulary, Reading, Writing, IsWeak(p));
    WeaknessesOfTable(p);
  }

  lemma WeaknessesOfAppend(a: seq<Skill>, b: seq<Skill>)
    ensures WeaknessesOf(a + b) == WeaknessesOf(a) + WeaknessesOf(b)
  {
    assert forall i :: 0 <= i < |a| + |b| ==> WeaknessesOf(a + b)[i] == (WeaknessesOf(a) + WeaknessesOf(b))[i];
  }

  /** Saving scores and then analysing them reports exactly the skills whose
      new score is under its threshold. */
  lemma SaveThenAnalyze(users: UserStore, id: UserId, g: int, v: int, rd: int, w: int, k: Skill)
    requires id < |users|
    ensures var r := SavePretest(users, id, Some(JNum(g)), Some(JNum(v)), Some(JNum(rd)), Some(JNum(w)));
            && r.Ok?
            && Analyze(r.value.users, id).Ok?
            && (WeaknessOf(k) in Analyze(r.value.users, id).value <==>
                  SkillScore(PretestScores(g, v, rd, w, 0, []), k) < Threshold(k))
  {
  }
}
